=== FILE: README.md ===
# Prompt evaluation harness for a vision-language model: a Dafny model

This project models the decision logic of a script that evaluates prompt variants
for a vision-language model. The model labels underwater images with a fixed
vocabulary of benthic categories. The script works as follows:

- It shuffles the image folder and sets the first two images aside as few-shot
  demonstrations.
- It sends every remaining image to a chat endpoint once per prompt variant, in a
  shuffled order of the five variants:
  - variants 0, 1, 2 and 4 are zero-shot;
  - variant 3 is few-shot;
  - variant 4 replies with a dict whose `"labels"` entry holds the prediction.
- It sorts each response into one of these cases:
  - a parsed reply;
  - an unparsable reply, recorded as `['Failed']`;
  - a timeout, recorded as `['Timeout']` with time 600 s;
  - a connection failure, which ends the script.
- It appends each outcome to that variant's accumulators.
- At the end it scores every variant's predictions against the ground truth with a
  set-based F1 score.

The project also models the label vectorizer used when the dataset is prepared.

Modules:

- `Wrappers`: `Option` and `Result`.
- `PyLiteral`: the values `ast.literal_eval` can produce, as far as the harness
  looks at them. It models `set(v)` and `v['labels']`, including the cases where
  Python raises.
- `F1Score`: `f1_score` on exact rationals. It includes the division by zero when
  both inputs are empty.
- `Vectorize`: the multi-hot label vectors.
- `Conversation`: the chat messages of one request. A message is a map from dict
  key to field. This reproduces every key exactly, including the first
  demonstration answer, which the script stores under `" content"` (leading space).
- `InferenceClient`: `call_ollama_api`. It covers image preprocessing and the
  retry loop: a request is attempted at most `max_retries` times in all, an
  ordinary failure is followed by a sleep and another attempt while the budget
  lasts, and the first timeout or success ends the loop.
- `Harness`: the script. It covers the demonstration split, one iteration per
  (image, variant) pair, the accumulators, the image loop and the F1 table.

The following are parameters of the model, not code in it:

- the endpoint, as a function from (payload, request number) to an outcome;
- the clock;
- `ast.literal_eval`, as a function from text to a parsed value or a parse error;
- image reading and base64 encoding;
- the validation-set lookups;
- the two shuffles.

## Model

| member | source | states |
|---|---|---|
| `F1Score.F1OfSets` | prompt_test_container/app/f1_score_custom.py:13-17 | Fails with ZeroDivisionError exactly when both sets are empty. Otherwise the score times (\|a\|+\|b\|) equals 2\|a∩b\|, lies in [0,1], is 1 exactly when the sets are equal, and is 0 exactly when they are disjoint. |
| `F1Score.F1Score` | prompt_test_container/app/f1_score_custom.py:10-17 | Lists are compared as sets: the call fails exactly when both lists are empty, and otherwise the score times the sum of the two numbers of distinct labels equals twice the number of distinct shared labels. The score is 1 exactly when both lists hold the same labels, and 0 exactly when no true label is predicted. |
| `F1Score.F1Symmetric` | prompt_test_container/app/f1_score_custom.py:15 | Swapping truth and prediction leaves the score unchanged. |
| `F1Score.F1ScoreSetInvariant` | prompt_test_container/app/f1_score_custom.py:13-14 | Order and repetition in either list do not affect the score. |
| `F1Score.F1IsHarmonicMean` | prompt_test_container/app/f1_score_custom.py:15 | With a non-empty overlap, the score is the harmonic mean of precision \|a∩b\|/\|b\| and recall \|a∩b\|/\|a\|. |
| `F1Score.OneOfTwoLabelsScoresTwoThirds` | prompt_test_container/app/f1_score_custom.py:13-15 | Truth `['Sand', 'Turf']` against prediction `['Sand']` scores exactly 2/3. |
| `F1Score.IntersectionCard` | prompt_test_container/app/f1_score_custom.py:15 | The overlap is no larger than the true set, and exactly as large when the true set is contained in the predicted one. |
| `Vectorize.Vector` | preparing_dataset/vectorize.py:19 | One entry per allowed label, each 0 or 1. The entry is 1 exactly when that label occurs in the item. |
| `Vectorize.VectorizeRows` | preparing_dataset/vectorize.py:14-21 | One vector per row, in row order. Each vector has one entry per allowed label, and the entry is 1 exactly when the label occurs in that row. |
| `Vectorize.VectorDependsOnlyOnVocabulary` | preparing_dataset/vectorize.py:19 | Two items that agree on every allowed label get the same vector. |
| `Vectorize.UnknownLabelIgnored` | preparing_dataset/vectorize.py:19 | Adding a label outside the vocabulary does not change the vector. |
| `Vectorize.SameLabelsSameVector` | preparing_dataset/vectorize.py:19 | Items holding the same labels, in any order and with any repetition, get the same vector. |
| `PyLiteral.Elements` | prompt_test_container/app/f1_score_custom.py:14 | `set(v)` is defined exactly for lists, strings and dicts. For a list it is the list's items, for a dict its keys, and for a string its characters. |
| `PyLiteral.SubscriptNeedsKeyInSet` | prompt_test_container/app/prompts.py:250 | `v['labels']` succeeds exactly when `v` is a dict and the key is in `set(v)`. A list holding the string `'labels'` still raises. |
| `Conversation.FewShotMessages` | prompt_test_container/app/prompts.py:226-239 | The few-shot conversation has 2N+1 turns. The first holds the prompt and demo 0's image. Demo 0's answer is under `" content"`. Each later demo is an image turn then an answer turn. The last turn holds the target image. |
| `Conversation.DemoTurns` | prompt_test_container/app/prompts.py:232-236 | For each later demonstration: an image-only user turn with its image, then an assistant turn with its answer under `"content"`. |
| `Conversation.FewShotRoles` | prompt_test_container/app/prompts.py:226-239 | Roles alternate user/assistant through the few-shot conversation. No user turn after the first carries text. |
| `Conversation.BuildMessages` | prompt_test_container/app/prompts.py:219-239 | Zero-shot: a single user turn with exactly role, prompt text and the target image. Few-shot: 2N+1 alternating turns. The first turn holds the prompt and demo 0's image. Demo 0's answer is under `" content"` and its turn has no `"content"`. Each later demo is its image then its answer. The last turn holds only the target image. |
| `InferenceClient.EncodeAll` | prompt_test_container/app/prompts.py:35-41 | Encodes every image reference, in order, one for one. |
| `InferenceClient.EncodeImages` | prompt_test_container/app/prompts.py:33-41 | The copied message keeps its keys and every field except `"images"`. The images become their encodings, one per reference. |
| `InferenceClient.Prepare` | prompt_test_container/app/prompts.py:31-42 | One prepared message per input message, in order. Each keeps its keys and every non-image field. A message with images gets a list of equal length. |
| `InferenceClient.RetryFrom` | prompt_test_container/app/prompts.py:51-71 | From request number `retries` on: all requests before the last failed in an ordinary way, there is one sleep between consecutive requests, the last request's outcome is returned, and an ordinary failure ends the loop only when the budget is spent. |
| `InferenceClient.CallApi` | prompt_test_container/app/prompts.py:50-71 | The request loop follows the retry policy. With `max_retries <= 0` nothing is sent and None is returned. |
| `InferenceClient.CallOllamaApi` | prompt_test_container/app/prompts.py:26-71 | The client sends the prepared messages and follows the retry policy. |
| `InferenceClient.RetryPolicyIsDeterministic` | prompt_test_container/app/prompts.py:50-71 | For a given endpoint behaviour, the retry policy allows exactly one outcome. |
| `InferenceClient.AnswerEndsTheLoop` | prompt_test_container/app/prompts.py:53-56 | A success after k ordinary failures returns the content with no error, after k+1 requests and k sleeps. |
| `InferenceClient.TimeoutEndsTheLoop` | prompt_test_container/app/prompts.py:58-61 | The first timeout returns the error "Timeout" at once, after k+1 requests and k sleeps, however many retries remain. |
| `InferenceClient.ExhaustionReturnsLastError` | prompt_test_container/app/prompts.py:63-71 | When every request fails, exactly `max_retries` requests and `max_retries`−1 sleeps happen, and the last failure's text is the error. |
| `Harness.Classify` | prompt_test_container/app/prompts.py:244-262 | The script halts exactly on a non-timeout error without a message, or when variant 4's parsed reply has no `"labels"`. A parse error records `['Failed']` with the measured time. A timeout records `['Timeout']` with 600 s. Otherwise the parsed value, or its `"labels"` for variant 4, is recorded with the measured time. |
| `Harness.RunAttempt` | prompt_test_container/app/prompts.py:216-262 | One iteration's outcome is the classification of the first request that does not fail in an ordinary way, or of the third request. The iteration ends the script exactly when all three requests fail in an ordinary way and the last failure's text is not "Timeout". A missing `"labels"` halts variant 4 only. |
| `Harness.ClassifiedCallExits` | prompt_test_container/app/prompts.py:50-71 | The same connection-failure condition, for any payload sent with the default retry budget. |
| `Harness.Append` | prompt_test_container/app/prompts.py:254-264 | The record's prediction and time become the newest entries after all earlier ones. failed_parse grows by one exactly for a parse failure, timeouts grows by one exactly for a timeout, and otherwise each stays the same. |
| `Harness.AppendExtendsTally` | prompt_test_container/app/prompts.py:254-264 | Appending one record turns a tally for n images into one for n+1. The record is the entry for image n, and the entries for earlier images are kept. |
| `Harness.RunVariants` | prompt_test_container/app/prompts.py:216-264 | One image over every variant in order. It fails exactly when some variant's iteration fails, and then with that iteration's error. Otherwise each variant's accumulators gain exactly that iteration's record, and no other key changes. |
| `Harness.RunVariantsTallies` | prompt_test_container/app/prompts.py:216-264 | After one image, every variant holds one more prediction and time than before. |
| `Harness.RunImages` | prompt_test_container/app/prompts.py:209-264 | The image loop halts exactly when the iteration for some remaining image and some variant halts, and then with the error of such an iteration; parse failures and timeouts never halt it. Otherwise true_labels holds each image's ground truth in image order, and every variant holds exactly one prediction and one time per image. Each variant's entry for image t is the prediction and time of the iteration for image t and that variant. failed_parse and timeouts equal the number of that variant's iterations recorded as a parse failure and as a timeout. Entries for images before the starting point are kept. |
| `Harness.ImagePass` | prompt_test_container/app/prompts.py:212-264 | One image over every variant. It halts with the error of one of that image's iterations; otherwise whether a later image halts the loop is unchanged, the image's ground truth is appended, and every variant's entries and counters cover one more image. |
| `Harness.ImageStep` | prompt_test_container/app/prompts.py:212-264 | One image's pass turns the loop state after idx images (ground truth, filed entries, counters) into the state after idx+1 images. |
| `Harness.RunVariantsHalts` | prompt_test_container/app/prompts.py:216-262 | One image's pass halts only with the error of one of that image's iterations. When it completes, the loop halts from this image on exactly when it halts from the next image on. |
| `Harness.RunVariantsCounts` | prompt_test_container/app/prompts.py:251-257 | After one image, each variant's failed_parse and timeouts count its parse failures and timeouts over one more image. |
| `Harness.RunVariantsFiles` | prompt_test_container/app/prompts.py:216-264 | One image's pass files that image's iteration records behind the records of the earlier images. |
| `Harness.ImageLoop` | prompt_test_container/app/prompts.py:200-264 | Starting from empty accumulators for every variant, the image loop halts exactly when some image's iteration for some variant halts, with that iteration's error. Otherwise it leaves every variant with one entry per image, each entry the image's iteration record for that variant, and counters that count the variant's parse failures and timeouts. The accumulators hold exactly the variants of the order. |
| `Harness.ScorePair` | prompt_test_container/app/prompts.py:269 | Scoring one prediction fails exactly when the prediction is not iterable, or both collections are empty. Otherwise it is f1_score of the two as sets, in [0,1]. |
| `Harness.ScoreVariant` | prompt_test_container/app/prompts.py:269-270 | A variant's score list succeeds exactly when there is a prediction for every image and every pair scores. It then has one score per image, each in [0,1]. |
| `Harness.ScoreVariantErrors` | prompt_test_container/app/prompts.py:269-270 | A variant's scoring raises IndexError only when it has fewer predictions than there are images, and otherwise fails only where f1_score itself raises. |
| `Harness.Evaluate` | prompt_test_container/app/prompts.py:269-270 | The F1 table has a column for every variant in the order and no other. Each column is that variant's score list. It fails exactly when some variant's scoring fails. |
| `Harness.Scorer` | prompt_test_container/app/prompts.py:269-270 | A variant's score list succeeds exactly when there are no images, or the variant has an accumulator with a prediction for every image and every pair scores. The list then has one score per image, each f1_score of the image's ground truth and the variant's prediction. The lookup raises KeyError exactly for a variant without an accumulator when there are images, IndexError only for a variant with fewer predictions than images, and otherwise only f1_score's own errors arise. |
| `Harness.TalliedRunIndexesSafely` | prompt_test_container/app/prompts.py:269-270 | After a tallied image loop, `predicted_labels[i][j]` never raises KeyError or IndexError. |
| `Harness.EvaluationFails` | prompt_test_container/app/prompts.py:269-270 | After a completed image loop, the F1 table fails exactly when some recorded prediction cannot be scored against its image's ground truth, and then with f1_score's own error (TypeError or ZeroDivisionError). |
| `Harness.RunOnImages` | prompt_test_container/app/prompts.py:200-270 | Image loop then F1 table. It halts exactly when some iteration halts (with that error) or some recorded prediction cannot be scored (with f1_score's error); the table never fails on a missing variant or prediction. Otherwise every variant ends with one prediction, one time and one score in [0,1] per image. The prediction and time are those of the image's iteration for that variant, the score is f1_score of the image's ground truth and that prediction, and the counters count the variant's parse failures and timeouts. The accumulators and the F1 table hold exactly the variants of the order. |
| `Harness.SplitDemos` | prompt_test_container/app/prompts.py:196 | Popping N demonstrations fails exactly when fewer than N images exist. Otherwise the demonstrations are the first N images and the rest are the others, in order. |
| `Harness.DemosAreNotEvaluated` | prompt_test_container/app/prompts.py:196 | With distinct image paths, no demonstration image is among the evaluated images. |
| `Harness.DemosOf` | prompt_test_container/app/prompts.py:196-198 | The demonstrations are the first two shuffled images, and their answers are the answer texts of those two images, in the same order. |
| `Harness.RunWith` | prompt_test_container/app/prompts.py:196-270 | For any iteration function: the run fails exactly when there are fewer than two images (TooFewImages), when an iteration on an evaluated image halts (with that error), or when a recorded prediction cannot be scored (with f1_score's error). Otherwise the evaluated images are the shuffled list after its first two entries, with every entry, counter and score as the image loop and the F1 table leave them, and the accumulators and the F1 table hold exactly the variants of the order. |
| `Harness.Run` | prompt_test_container/app/prompts.py:191-270 | The whole run. With fewer than two images it stops at the demonstration split. Otherwise it halts exactly when an iteration on an evaluated image halts, with that iteration's error, or when a recorded prediction cannot be scored, with f1_score's error; parse failures and timeouts never halt it. A completed run lists the ground truth of the shuffled images after the first two, in order. Every variant ends with one prediction, one time and one score per evaluated image. The entries are the records of that image's iterations, made with the first two images as demonstrations, the counters count the variant's parse failures and timeouts, and each score is f1_score of the ground truth and the prediction. The accumulators and the F1 table hold exactly the variants of the order. |
| `Harness.RunRecordsEveryAttempt` | prompt_test_container/app/prompts.py:196-264 | In a completed run, variant j's prediction and time for evaluated image t are those of `RunAttempt` on image t, variant j and the demonstrations split off first, and that attempt did not halt. |

## Behaviour worth noting

The model follows the code in each of these places.

- Two empty label collections make f1_score divide zero by zero. The resulting ZeroDivisionError ends the run. `F1OfSets` fails exactly then, and the harness halts with `ZeroDivision`.
- The first demonstration answer is stored under the key `" content"`, with a leading space, so the first assistant turn carries no `"content"`. `BuildMessages` reproduces this and states it.
- Only unparsable replies are recorded as failures. Two other reply problems raise uncaught exceptions that end the run:
  - a parsed reply to variant 4 that is not a dict with `"labels"` raises KeyError or TypeError (`LabelsMissing`);
  - a parsed prediction that `set()` rejects raises TypeError when scoring (`NotIterable`).
- When the retry budget is spent, the client returns the last failure's text as `error`, and the harness compares that text with `"Timeout"`. A failure whose text is exactly `"Timeout"` is therefore recorded as a timeout (`RunAttempt`).
- Predictions are not checked against the label vocabulary: every parsed prediction is scored as it is.

## Left out

- HTTP, JSON serialisation and the `requests` library: the endpoint is a function from (payload, request number) to an answer, a timeout or an ordinary failure with its text. It may behave differently for every (image, variant) iteration.
- `time.sleep`: the model counts sleeps instead of performing them. The sleep after a recorded timeout (prompts.py:259) only delays the script and is not modelled.
- The clock: the measured time of an iteration is a parameter.
- File reads and base64 encoding of images: encoding is a parameter applied to every image reference.
- A missing image file: `open` raises FileNotFoundError (prompts.py:37), which ends the script. Encoding is total in the model, so this crash is not modelled.
- A successful reply whose body lacks `message.content`: the lookup raises KeyError (prompts.py:55), which is not caught, so there is no retry and the script ends. An endpoint outcome in the model always carries content, so this crash is not modelled.
- A successful reply whose `content` is null: the client returns no message and no error, and the harness then exits as on a connection failure (prompts.py:260-262). Content in the model is always a string, so this path is not modelled.
- The grammar of `ast.literal_eval`: it is a parameter. Parsed values are lists, tuples and sets of strings (all three alike), strings, dicts with string keys, and "other" values (numbers, booleans, None). Other exceptions it can raise, such as MemoryError or RecursionError, are not modelled.
- `bytes` literals: `ast.literal_eval` can return one and `set()` accepts it, but it is none of the modelled value kinds.
- List elements that are not strings: `set(y_pred)` on a list holding an unhashable or non-string element is not modelled.
- The two `np.random.shuffle` calls and the seed: the shuffled variant order and image list are inputs. The variant order is required to be a permutation of 0–4, which is how the script builds it.
- The validation-set lookups (`val_set.loc[...]`, `int(Path(path).stem)`) and the `str(list(...))` of the demonstration answers: they are functions from an image path to its labels or its answer text. A missing row or a non-numeric file name is not modelled.
- The prompt texts: each variant's prompt is a parameter. Only the variant numbers 3 (few-shot) and 4 (dict reply) change the logic.
- `Vectorize.VectorizeRows`: rows are taken as already parsed label lists. The `literal_eval` of each CSV cell and the CSV reading and writing are not modelled.
- pandas output, summary statistics, CSV and text reports, and the plotting and statistics scripts: output only.
- The dataset download and image retrieval scripts: network I/O. The stratification, ecoregion join and CSV combining scripts: thin wrappers over library calls.
- `call_ollama_api` copies each message before replacing its images, so the caller's messages are never changed. In the model every value is immutable, so this holds by construction and is not stated separately.
- Floating point: scores and times are exact reals, not IEEE doubles.
- `call_ollama_api`'s `headers`, `model` and `stream` entries: they are constant and carry no logic.

=== FILE: conversation.dfy ===
/** Construction of the chat messages sent for one (image, prompt variant) pair.
    A message is a Python dict, modelled as a map from key to field so that every key
    is reproduced exactly as written, including the first demonstration answer, which
    is stored under the key " content" (with a leading space), not "content". */
module Conversation {
  import opened Wrappers

  /** A dict value: a text, or a list of image references. */
  datatype Field = Text(text: string) | Paths(items: seq<string>)

  type Message = map<string, Field>

  /** The variant whose conversation carries worked demonstrations. */
  const FewShotVariant := 3

  /** `m.get(key)`: the field stored under `key`, if any. */
  function Get(m: Message, key: string): Option<Field>
  {
    if key in m then Some(m[key]) else None
  }

  /** A user turn with prompt text and an image. */
  function PromptTurn(prompt: string, image: string): Message
  {
    map["role" := Text("user"), "content" := Text(prompt), "images" := Paths([image])]
  }

  /** A user turn that carries only an image. */
  function ImageTurn(image: string): Message
  {
    map["role" := Text("user"), "images" := Paths([image])]
  }

  /** An assistant turn holding `answer` under the given key. */
  function AnswerTurn(key: string, answer: string): Message
  {
    map["role" := Text("assistant"), key := Text(answer)]
  }

  lemma PromptTurnShape(prompt: string, image: string)
    ensures PromptTurn(prompt, image).Keys == {"role", "content", "images"}
    ensures Get(PromptTurn(prompt, image), "role") == Some(Text("user"))
    ensures Get(PromptTurn(prompt, image), "content") == Some(Text(prompt))
    ensures Get(PromptTurn(prompt, image), "images") == Some(Paths([image]))
  {
  }

  lemma ImageTurnShape(image: string)
    ensures ImageTurn(image).Keys == {"role", "images"}
    ensures Get(ImageTurn(image), "role") == Some(Text("user"))
    ensures Get(ImageTurn(image), "content") == None
    ensures Get(ImageTurn(image), "images") == Some(Paths([image]))
  {
  }

  lemma AnswerTurnShape(key: string, answer: string)
    requires key != "role"
    ensures Get(AnswerTurn(key, answer), "role") == Some(Text("assistant"))
    ensures Get(AnswerTurn(key, answer), key) == Some(Text(answer))
    ensures key != "content" ==> Get(AnswerTurn(key, answer), "content") == None
  {
  }

  /** The demonstration pairs `k .. |demoPaths|-1` of the few-shot conversation
      (the loop `for k in range(1, N_DEMOS)`). */
  function DemoTurns(demoPaths: seq<string>, demoAnswers: seq<string>, k: nat): (ms: seq<Message>)
    requires k <= |demoPaths| <= |demoAnswers|
    ensures |ms| == 2 * (|demoPaths| - k)
    ensures forall i :: 0 <= i < |demoPaths| - k ==> ms[2 * i] == ImageTurn(demoPaths[k + i])
    ensures forall i :: 0 <= i < |demoPaths| - k ==> ms[2 * i + 1] == AnswerTurn("content", demoAnswers[k + i])
    decreases |demoPaths| - k
  {
    if k == |demoPaths| then []
    else
      var rest := DemoTurns(demoPaths, demoAnswers, k + 1);
      var ms := [ImageTurn(demoPaths[k]), AnswerTurn("content", demoAnswers[k])] + rest;
      forall i | 1 <= i < |demoPaths| - k
        ensures ms[2 * i] == ImageTurn(demoPaths[k + i])
        ensures ms[2 * i + 1] == AnswerTurn("content", demoAnswers[k + i])
      {
        assert ms[2 * i] == rest[2 * (i - 1)];
        assert ms[2 * i + 1] == rest[2 * (i - 1) + 1];
      }
      ms
  }

  /** The few-shot conversation, turn by turn: the prompt with demo 0's image, demo 0's
      answer under " content", the later demonstrations, then the target image. */
  function FewShotMessages(prompt: string, path: string,
                           demoPaths: seq<string>, demoAnswers: seq<string>): (ms: seq<Message>)
    requires 1 <= |demoPaths| == |demoAnswers|
    ensures |ms| == 2 * |demoPaths| + 1
    ensures ms[0] == PromptTurn(prompt, demoPaths[0])
    ensures ms[1] == AnswerTurn(" content", demoAnswers[0])
    ensures forall k :: 1 <= k < |demoPaths| ==>
              ms[2 * k] == ImageTurn(demoPaths[k]) &&
              ms[2 * k + 1] == AnswerTurn("content", demoAnswers[k])
    ensures ms[|ms| - 1] == ImageTurn(path)
  {
    var demos := DemoTurns(demoPaths, demoAnswers, 1);
    var ms := [PromptTurn(prompt, demoPaths[0]), AnswerTurn(" content", demoAnswers[0])]
              + demos + [ImageTurn(path)];
    assert forall k :: 1 <= k < |demoPaths| ==>
      ms[2 * k] == ImageTurn(demoPaths[k]) &&
      ms[2 * k + 1] == AnswerTurn("content", demoAnswers[k]) by {
      forall k | 1 <= k < |demoPaths|
        ensures ms[2 * k] == ImageTurn(demoPaths[k])
        ensures ms[2 * k + 1] == AnswerTurn("content", demoAnswers[k])
      {
        assert ms[2 * k] == demos[2 * (k - 1)];
        assert ms[2 * k + 1] == demos[2 * (k - 1) + 1];
      }
    }
    ms
  }

  /** Roles alternate user/assistant through the few-shot conversation, and no user
      turn after the first carries text. */
  lemma {:induction false} FewShotRoles(prompt: string, path: string,
                                        demoPaths: seq<string>, demoAnswers: seq<string>)
    requires 1 <= |demoPaths| == |demoAnswers|
    ensures var ms := FewShotMessages(prompt, path, demoPaths, demoAnswers);
            forall i :: 0 <= i < |ms| ==>
              && Get(ms[i], "role") == Some(Text(if i % 2 == 0 then "user" else "assistant"))
              && (0 < i && i % 2 == 0 ==> Get(ms[i], "content") == None)
  {
    var ms := FewShotMessages(prompt, path, demoPaths, demoAnswers);
    forall i | 0 <= i < |ms|
      ensures Get(ms[i], "role") == Some(Text(if i % 2 == 0 then "user" else "assistant"))
      ensures 0 < i && i % 2 == 0 ==> Get(ms[i], "content") == None
    {
      FewShotTurn(prompt, path, demoPaths, demoAnswers, ms, i);
    }
  }

  /** One turn of `FewShotRoles`. */
  lemma FewShotTurn(prompt: string, path: string, demoPaths: seq<string>, demoAnswers: seq<string>,
                    ms: seq<Message>, i: nat)
    requires 1 <= |demoPaths| == |demoAnswers|
    requires ms == FewShotMessages(prompt, path, demoPaths, demoAnswers)
    requires i < |ms|
    ensures Get(ms[i], "role") == Some(Text(if i % 2 == 0 then "user" else "assistant"))
    ensures 0 < i && i % 2 == 0 ==> Get(ms[i], "content") == None
  {
    var n := |demoPaths|;
    if i == 0 {
      PromptTurnShape(prompt, demoPaths[0]);
    } else if i == 1 {
      AnswerTurnShape(" content", demoAnswers[0]);
    } else if i == 2 * n {
      assert i % 2 == 0;
      ImageTurnShape(path);
    } else {
      DemoTurnAt(prompt, path, demoPaths, demoAnswers, ms, i);
    }
  }

  /** A turn strictly between demo 0's answer and the target image is a later
      demonstration's image (even index) or answer (odd index). */
  lemma DemoTurnAt(prompt: string, path: string, demoPaths: seq<string>, demoAnswers: seq<string>,
                   ms: seq<Message>, i: nat)
    requires 1 <= |demoPaths| == |demoAnswers|
    requires ms == FewShotMessages(prompt, path, demoPaths, demoAnswers)
    requires 2 <= i < 2 * |demoPaths|
    ensures Get(ms[i], "role") == Some(Text(if i % 2 == 0 then "user" else "assistant"))
    ensures i % 2 == 0 ==> Get(ms[i], "content") == None
  {
    var k := i / 2;
    assert 1 <= k < |demoPaths|;
    if i % 2 == 0 {
      assert i == 2 * k;
      assert ms[i] == ImageTurn(demoPaths[k]);
      ImageTurnShape(demoPaths[k]);
    } else {
      assert i == 2 * k + 1;
      assert ms[i] == AnswerTurn("content", demoAnswers[k]);
      AnswerTurnShape("content", demoAnswers[k]);
    }
  }

  /** The conversation for prompt variant `j`: a single user turn for the zero-shot
      variants; for the few-shot variant, the prompt with the first demonstration image,
      the demonstrations' answers alternating with their images, and finally the target
      image. The demonstration count is `|demoPaths|` (the harness uses two). */
  function BuildMessages(j: int, prompt: string, path: string,
                         demoPaths: seq<string>, demoAnswers: seq<string>): (ms: seq<Message>)
    requires j == FewShotVariant ==> 1 <= |demoPaths| == |demoAnswers|
    // zero-shot: one user turn with the prompt text and the target image
    ensures j != FewShotVariant ==>
              && |ms| == 1
              && ms[0].Keys == {"role", "content", "images"}
              && Get(ms[0], "role") == Some(Text("user"))
              && Get(ms[0], "content") == Some(Text(prompt))
              && Get(ms[0], "images") == Some(Paths([path]))
    // few-shot: 2·N+1 turns alternating user/assistant, starting and ending with user
    ensures j == FewShotVariant ==>
              && |ms| == 2 * |demoPaths| + 1
              && (forall i :: 0 <= i < |ms| ==>
                    Get(ms[i], "role") == Some(Text(if i % 2 == 0 then "user" else "assistant")))
    // few-shot: only the first turn carries the prompt text, with demo 0's image
    ensures j == FewShotVariant ==>
              && Get(ms[0], "content") == Some(Text(prompt))
              && Get(ms[0], "images") == Some(Paths([demoPaths[0]]))
              && (forall i :: 0 < i < |ms| && i % 2 == 0 ==> Get(ms[i], "content") == None)
    // few-shot: the first answer sits under " content"; the turn has no "content" key
    ensures j == FewShotVariant ==>
              && Get(ms[1], "content") == None
              && Get(ms[1], " content") == Some(Text(demoAnswers[0]))
    // few-shot: each later demonstration is its image turn, then its answer under "content"
    ensures j == FewShotVariant ==>
              forall k :: 1 <= k < |demoPaths| ==>
                && Get(ms[2 * k], "images") == Some(Paths([demoPaths[k]]))
                && Get(ms[2 * k + 1], "content") == Some(Text(demoAnswers[k]))
    // few-shot: the last turn carries only the target image
    ensures j == FewShotVariant ==>
              && ms[|ms| - 1].Keys == {"role", "images"}
              && Get(ms[|ms| - 1], "images") == Some(Paths([path]))
  {
    if j != FewShotVariant then
      PromptTurnShape(prompt, path);
      [PromptTurn(prompt, path)]
    else
      var ms := FewShotMessages(prompt, path, demoPaths, demoAnswers);
      FewShotRoles(prompt, path, demoPaths, demoAnswers);
      PromptTurnShape(prompt, demoPaths[0]);
      AnswerTurnShape(" content", demoAnswers[0]);
      ImageTurnShape(path);
      forall k | 1 <= k < |demoPaths|
        ensures Get(ms[2 * k], "images") == Some(Paths([demoPaths[k]]))
        ensures Get(ms[2 * k + 1], "content") == Some(Text(demoAnswers[k]))
      {
        ImageTurnShape(demoPaths[k]);
        AnswerTurnShape("content", demoAnswers[k]);
      }
      ms
  }
}

=== FILE: f1_score.dfy ===
/** The set-based F1 score used to grade one prediction against its ground truth:
    both label collections become sets, and the score is twice the size of their
    intersection over the sum of their sizes. Scores are exact rationals. */
module F1Score {
  import opened Wrappers
  import opened PyLiteral

  /** Python's error when both sets are empty and the denominator is zero. */
  datatype ArithError = ZeroDivisionError

  /** The part of `a` shared with `b` never outnumbers `a`, and matches it in size only
      when `a` lies wholly inside `b`. */
  lemma {:induction false} IntersectionCard(a: set<string>, b: set<string>)
    ensures |a * b| <= |a|
    ensures |a * b| == |a| <==> a <= b
  {
    assert a * b <= a;
    assert |a - a * b| + |a * b| == |a| by {
      assert (a - a * b) + a * b == a;
      assert (a - a * b) !! a * b;
    }
    if |a * b| == |a| {
      assert |a - a * b| == 0;
      assert a - a * b == {};
      forall x | x in a ensures x in b {
        assert x !in a - a * b;
      }
    }
  }

  /** A ratio of a non-negative numerator to a positive denominator it does not exceed
      lies in [0, 1], reaches 1 only at equality and 0 only at a zero numerator. */
  lemma RatioBounds(num: real, den: real)
    requires 0.0 <= num <= den && 0.0 < den
    ensures 0.0 <= num / den <= 1.0
    ensures num / den == 1.0 <==> num == den
    ensures num / den == 0.0 <==> num == 0.0
    ensures num / den * den == num
  {
    var r := num / den;
    assert r * den == num;
  }

  /** The score of two label sets: 2·|a ∩ b| / (|a| + |b|), or ZeroDivisionError when
      both are empty. */
  function F1OfSets(a: set<string>, b: set<string>): (r: Result<real, ArithError>)
    ensures r.Failure? <==> a == {} && b == {}
    ensures r.Success? ==> r.value * (|a| + |b|) as real == (2 * |a * b|) as real
    ensures r.Success? ==> 0.0 <= r.value <= 1.0
    ensures r.Success? ==> (r.value == 1.0 <==> a == b)
    ensures r.Success? ==> (r.value == 0.0 <==> a !! b)
  {
    if |a| + |b| == 0 then
      Failure(ZeroDivisionError)
    else
      IntersectionCard(a, b);
      IntersectionCard(b, a);
      assert b * a == a * b;
      var num := (2 * |a * b|) as real;
      var den := (|a| + |b|) as real;
      assert num <= den;
      assert num == den <==> a == b;
      assert num == 0.0 <==> a !! b by {
        if a * b != {} {
          var x :| x in a * b;
          assert x in a && x in b;
        } else {
          assert |a * b| == 0;
          forall x | x in a ensures x !in b {
            assert x !in a * b;
          }
        }
      }
      RatioBounds(num, den);
      Success(num / den)
  }

  /** `f1_score(y_true, y_pred)`: the score of the two lists' sets, twice the number of
      distinct shared labels over the numbers of distinct labels on each side. */
  function F1Score(yTrue: seq<string>, yPred: seq<string>): (r: Result<real, ArithError>)
    ensures r.Failure? <==> yTrue == [] && yPred == []
    ensures r.Success? ==>
              r.value * (|SetOf(yTrue)| + |SetOf(yPred)|) as real == (2 * |SetOf(yTrue) * SetOf(yPred)|) as real
    ensures r.Success? ==> 0.0 <= r.value <= 1.0
    ensures r.Success? ==> (r.value == 1.0 <==> forall x :: x in yTrue <==> x in yPred)
    ensures r.Success? ==> (r.value == 0.0 <==> forall x :: x in yTrue ==> x !in yPred)
  {
    SetOfEmpty(yTrue);
    SetOfEmpty(yPred);
    SetOfMembership(yTrue);
    SetOfMembership(yPred);
    assert SetOf(yTrue) == SetOf(yPred) <==> forall x :: x in yTrue <==> x in yPred by {
      if SetOf(yTrue) == SetOf(yPred) {
        forall x ensures x in yTrue <==> x in yPred {
          assert x in yTrue <==> x in SetOf(yTrue);
        }
      }
    }
    assert SetOf(yTrue) !! SetOf(yPred) <==> forall x :: x in yTrue ==> x !in yPred by {
      if SetOf(yTrue) !! SetOf(yPred) {
        forall x | x in yTrue ensures x !in yPred {
          assert x in SetOf(yTrue);
        }
      }
    }
    F1OfSets(SetOf(yTrue), SetOf(yPred))
  }

  /** A worked case: predicting one of two true labels scores 2·1 / (2 + 1). */
  lemma {:induction false} OneOfTwoLabelsScoresTwoThirds()
    ensures F1Score(["Sand", "Turf"], ["Sand"]) == Success(2.0 / 3.0)
  {
    var truth := SetOf(["Sand", "Turf"]);
    var predicted := SetOf(["Sand"]);
    assert truth == {"Sand", "Turf"};
    assert predicted == {"Sand"};
    assert truth * predicted == {"Sand"};
    var v := F1OfSets(truth, predicted).value;
    assert v * 3.0 == 2.0;
  }

  /** The score does not depend on which argument is the truth. */
  lemma {:induction false} F1Symmetric(a: set<string>, b: set<string>)
    ensures F1OfSets(a, b) == F1OfSets(b, a)
  {
    assert a * b == b * a;
  }

  /** Duplicates and ordering inside either list are irrelevant: lists with the same
      elements give the same score. */
  lemma {:induction false} F1ScoreSetInvariant(yTrue: seq<string>, yTrue': seq<string>,
                                               yPred: seq<string>, yPred': seq<string>)
    requires forall x :: x in yTrue <==> x in yTrue'
    requires forall x :: x in yPred <==> x in yPred'
    ensures F1Score(yTrue, yPred) == F1Score(yTrue', yPred')
  {
    assert SetOf(yTrue) == SetOf(yTrue');
    assert SetOf(yPred) == SetOf(yPred');
  }

  /** With a non-empty overlap the score is the harmonic mean of precision
      |a ∩ b| / |b| and recall |a ∩ b| / |a|. */
  lemma {:induction false} F1IsHarmonicMean(a: set<string>, b: set<string>)
    requires a * b != {}
    ensures F1OfSets(a, b) == Success(HarmonicMean(Precision(a, b), Recall(a, b)))
  {
    var x :| x in a * b;
    assert x in a && x in b;
    var n := |a * b| as real;
    var p := |b| as real;
    var q := |a| as real;
    var v := F1OfSets(a, b).value;
    assert (|a| + |b|) as real == q + p && (2 * |a * b|) as real == 2.0 * n;
    assert v * (q + p) == 2.0 * n;
    QuotientOfProduct(v, q + p, 2.0 * n);
    HarmonicOfRatios(n, p, q);
    assert Precision(a, b) == n / p && Recall(a, b) == n / q;
    assert v == HarmonicMean(n / p, n / q);
    assert F1OfSets(a, b) == Success(v);
  }

  /** Precision of the predicted set b against the true set a: |a ∩ b| / |b|. */
  function Precision(a: set<string>, b: set<string>): real
    requires b != {}
  {
    |a * b| as real / |b| as real
  }

  /** Recall of the predicted set b against the true set a: |a ∩ b| / |a|. */
  function Recall(a: set<string>, b: set<string>): real
    requires a != {}
  {
    |a * b| as real / |a| as real
  }

  /** The harmonic mean 2xy / (x + y) of two positive reals. */
  function HarmonicMean(x: real, y: real): real
    requires x + y > 0.0
  {
    2.0 * x * y / (x + y)
  }

  /** The harmonic mean of n/p and n/q is 2n/(p+q). */
  lemma HarmonicOfRatios(n: real, p: real, q: real)
    requires n > 0.0 && p > 0.0 && q > 0.0
    ensures 2.0 * (n / p) * (n / q) / ((n / p) + (n / q)) == 2.0 * n / (q + p)
  {
    var precision := n / p;
    var recall := n / q;
    assert precision * p == n;
    assert recall * q == n;
    var sum := precision + recall;
    var prod := precision * recall;
    assert sum * (p * q) == n * (p + q) by {
      assert sum * (p * q) == (precision * p) * q + (recall * q) * p;
    }
    assert prod * (p * q) == n * n by {
      assert prod * (p * q) == (precision * p) * (recall * q);
    }
    // Both 2 * prod * (p + q) and 2n * sum equal 2n²(p + q) / (p * q).
    assert (2.0 * prod * (p + q)) * (p * q) == (2.0 * n * sum) * (p * q) by {
      assert (2.0 * prod * (p + q)) * (p * q) == 2.0 * (prod * (p * q)) * (p + q);
      assert (2.0 * n * sum) * (p * q) == 2.0 * n * (sum * (p * q));
    }
    CancelPositive(2.0 * prod * (p + q), 2.0 * n * sum, p * q);
    QuotientOfProduct(2.0 * n / (q + p), sum, 2.0 * prod);
  }

  /** Cancelling a positive factor. */
  lemma CancelPositive(x: real, y: real, d: real)
    requires d > 0.0 && x * d == y * d
    ensures x == y
  {
    assert (x - y) * d == 0.0;
  }

  /** Dividing both sides of x * d == y by a positive d. */
  lemma QuotientOfProduct(x: real, d: real, y: real)
    requires d > 0.0 && x * d == y
    ensures x == y / d
  {
  }
}

=== FILE: harness.dfy ===
/** The prompt-evaluation run: the shuffled image list loses its first `NDemos` paths
    to the few-shot demonstrations; every remaining image is sent once per prompt
    variant, in the shuffled variant order; each reply is classified and appended to
    that variant's accumulators; finally every variant's predictions are scored against
    the ground truth with the set-based F1 score. The shuffles, the validation-set
    lookups, the clock, the endpoint and `ast.literal_eval` are all inputs (`Env`). */
module Harness {
  import opened Wrappers
  import opened PyLiteral
  import opened F1Score
  import opened Conversation
  import opened InferenceClient

  /** Number of few-shot demonstration images (N_DEMOS). */
  const NDemos := 2
  /** Number of prompt variants; they are numbered 0 to 4. */
  const VariantCount := 5
  /** The variant whose reply is a dict with "reasoning" and "labels". */
  const StructuredVariant := 4
  /** The time recorded for a timed-out request (TIMEOUT), in seconds. */
  const TimeoutSeconds: real := 600.0
  /** The harness calls the client with its default `max_retries`. */
  const RequestRetries := 3

  /** Why a run stops before producing its report. */
  datatype Halt =
    | TooFewImages      // image_paths.pop(0) on an empty list raises IndexError
    | ConnectionFailed  // a non-timeout error from the client ends the script (exit())
    | LabelsMissing     // y_pred['labels'] raises KeyError or TypeError, which is not caught
    | NotIterable       // set(y_pred) on a number, a boolean or None raises TypeError
    | ZeroDivision      // f1_score of two empty label collections
    | UnknownVariant    // predicted_labels[i] for a variant with no accumulator raises KeyError
    | MissingPrediction // predicted_labels[i][j] past the end of the list raises IndexError

  /** Everything outside the harness's own logic. */
  datatype Env = Env(
    prompt: int -> string,                                   // template text of each variant
    trueLabelsOf: string -> seq<string>,                     // ground-truth labels of an image
    answerOf: string -> string,                              // str(list(...)) of a demo's labels
    encode: string -> string,                                // read and base64-encode an image
    server: (nat, int) -> (seq<Message>, nat) -> Attempt,    // the endpoint during one call
    elapsed: (nat, int) -> real,                             // measured time of one call
    literalEval: string -> ParseOutcome)                     // ast.literal_eval

  /** The few-shot demonstrations: image paths and their answers. */
  datatype Demos = Demos(paths: seq<string>, answers: seq<string>)

  ghost predicate ValidDemos(demos: Demos)
  {
    |demos.paths| == NDemos && |demos.answers| == NDemos
  }

  /** A shuffle of range(5): every variant exactly once. */
  ghost predicate IsVariantOrder(order: seq<int>)
  {
    && |order| == VariantCount
    && (forall m :: 0 <= m < |order| ==> 0 <= order[m] < VariantCount)
    && (forall a, b :: 0 <= a < b < |order| ==> order[a] != order[b])
  }

  // ---------------------------------------------------------------------------
  // Classification of one reply
  // ---------------------------------------------------------------------------

  /** What one (image, variant) iteration appends: the prediction, the time, and whether
      the reply failed to parse or the request timed out. */
  datatype Record = Record(prediction: Literal, time: real, kind: RecordKind)

  /** How an iteration ended: a parsed reply, an unparsable reply, or a timeout. */
  datatype RecordKind = Reply | ParseFailure | TimeoutFailure

  /** The handling of one client response: a reply is parsed (and, for the structured
      variant, projected to its "labels"); an unparsable reply is recorded as ['Failed'];
      a timeout is recorded as ['Timeout'] with time TIMEOUT; any other error halts. */
  function Classify(j: int, response: ApiResponse, literalEval: string -> ParseOutcome,
                    elapsed: real): (r: Result<Record, Halt>)
    ensures r.Failure? <==>
              || (response.message.None? && response.error != Some(TimeoutError))
              || (response.message.Some? && j == StructuredVariant &&
                  literalEval(response.message.value).Parsed? &&
                  Subscript(literalEval(response.message.value).value, "labels").None?)
    ensures r.Failure? ==> (r.error == ConnectionFailed <==> response.message.None?)
    ensures r.Failure? ==> r.error == ConnectionFailed || r.error == LabelsMissing
    ensures r.Success? ==>
              (r.value.kind == ParseFailure <==> response.message.Some? && literalEval(response.message.value).ParseError?) &&
              (r.value.kind == ParseFailure ==> r.value.prediction == LitList(["Failed"]) && r.value.time == elapsed)
    ensures r.Success? ==>
              (r.value.kind == TimeoutFailure <==> response.message.None?) &&
              (r.value.kind == TimeoutFailure ==> r.value.prediction == LitList(["Timeout"]) && r.value.time == TimeoutSeconds)
    ensures r.Success? && r.value.kind == Reply ==>
              && r.value.time == elapsed
              && var v := literalEval(response.message.value).value;
                 r.value.prediction == (if j == StructuredVariant then v.fields["labels"] else v)
  {
    if response.message.Some? then
      match literalEval(response.message.value)
      case ParseError => Success(Record(LitList(["Failed"]), elapsed, ParseFailure))
      case Parsed(v) =>
        if j == StructuredVariant then
          match Subscript(v, "labels")
          case None => Failure(LabelsMissing)
          case Some(labels) => Success(Record(labels, elapsed, Reply))
        else
          Success(Record(v, elapsed, Reply))
    else if response.error == Some(TimeoutError) then
      Success(Record(LitList(["Timeout"]), TimeoutSeconds, TimeoutFailure))
    else
      Failure(ConnectionFailed)
  }

  /** The payload of the iteration for image `path` and variant `j`: the conversation
      with its image paths encoded. */
  function Payload(env: Env, demos: Demos, path: string, j: int): seq<Message>
    requires ValidDemos(demos)
  {
    Prepare(BuildMessages(j, env.prompt(j), path, demos.paths, demos.answers), env.encode)
  }

  /** One (image, variant) iteration: build the conversation, call the client with the
      default budget of three requests, and classify the response. The record is the
      classification of the first request that does not fail in an ordinary way, or of
      the third; the script exits on a connection failure exactly when all three
      requests fail in an ordinary way and the last failure's text is not "Timeout";
      a reply without "labels" halts the structured variant and no other. */
  function RunAttempt(env: Env, demos: Demos, i: nat, path: string, j: int): (r: Result<Record, Halt>)
    requires ValidDemos(demos)
    ensures exists k :: 0 <= k < RequestRetries
              && (forall k' :: 0 <= k' < k ==> env.server(i, j)(Payload(env, demos, path, j), k').RequestFailed?)
              && (env.server(i, j)(Payload(env, demos, path, j), k).RequestFailed? ==> k == RequestRetries - 1)
              && r == Classify(j, Settle(env.server(i, j)(Payload(env, demos, path, j), k)), env.literalEval, env.elapsed(i, j))
    ensures r == Failure(ConnectionFailed) <==>
              && (forall k :: 0 <= k < RequestRetries ==> env.server(i, j)(Payload(env, demos, path, j), k).RequestFailed?)
              && env.server(i, j)(Payload(env, demos, path, j), RequestRetries - 1).detail != TimeoutError
    ensures r.Failure? ==> r.error == ConnectionFailed || (r.error == LabelsMissing && j == StructuredVariant)
  {
    var messages := BuildMessages(j, env.prompt(j), path, demos.paths, demos.answers);
    var call := CallOllamaApi(messages, env.encode, env.server(i, j), RequestRetries);
    var payload := Payload(env, demos, path, j);
    ClassifiedCallExits(j, env.server(i, j), payload, env.literalEval, env.elapsed(i, j));
    assert 0 <= call.attempts - 1 < RequestRetries;
    Classify(j, call.response.value, env.literalEval, env.elapsed(i, j))
  }

  /** For any payload, the classified result of a call with the default retry budget
      is a connection failure exactly when every request failed in an ordinary way and
      the last failure's text is not "Timeout". */
  lemma {:induction false} ClassifiedCallExits(j: int, send: (seq<Message>, nat) -> Attempt, payload: seq<Message>,
                                               literalEval: string -> ParseOutcome, elapsed: real)
    ensures Classify(j, CallApi(send, payload, RequestRetries).response.value, literalEval, elapsed)
              == Failure(ConnectionFailed) <==>
              && (forall k :: 0 <= k < RequestRetries ==> send(payload, k).RequestFailed?)
              && send(payload, RequestRetries - 1).detail != TimeoutError
  {
    var call := CallApi(send, payload, RequestRetries);
    if (forall k :: 0 <= k < RequestRetries ==> send(payload, k).RequestFailed?) {
      assert call.attempts == RequestRetries;
    }
  }

  // ---------------------------------------------------------------------------
  // Per-variant accumulators
  // ---------------------------------------------------------------------------

  /** One variant's entries of predicted_labels, times, failed_parse and timeouts. */
  datatype Acc = Acc(predicted: seq<Literal>, times: seq<real>, failedParse: nat, timeouts: nat)

  const EmptyAcc := Acc([], [], 0, 0)

  /** Appending one iteration's record to a variant's accumulators: the record's
      prediction and time become the newest entries after all earlier ones, and
      failed_parse or timeouts goes up by one exactly when the record is of that kind. */
  function Append(acc: Acc, rec: Record): (r: Acc)
    ensures |r.predicted| == |acc.predicted| + 1 && |r.times| == |acc.times| + 1
    ensures r.predicted[..|acc.predicted|] == acc.predicted && r.predicted[|acc.predicted|] == rec.prediction
    ensures r.times[..|acc.times|] == acc.times && r.times[|acc.times|] == rec.time
    ensures acc.failedParse <= r.failedParse <= acc.failedParse + 1
    ensures r.failedParse == acc.failedParse + 1 <==> rec.kind == ParseFailure
    ensures acc.timeouts <= r.timeouts <= acc.timeouts + 1
    ensures r.timeouts == acc.timeouts + 1 <==> rec.kind == TimeoutFailure
  {
    Acc(acc.predicted + [rec.prediction], acc.times + [rec.time],
        acc.failedParse + (if rec.kind == ParseFailure then 1 else 0),
        acc.timeouts + (if rec.kind == TimeoutFailure then 1 else 0))
  }

  /** After `n` images, a variant holds `n` predictions and `n` times, and at most `n`
      of its iterations failed to parse or timed out. */
  ghost predicate TalliedAcc(acc: Acc, n: nat)
  {
    |acc.predicted| == n && |acc.times| == n && acc.failedParse + acc.timeouts <= n
  }

  /** Every variant of the order is tallied for `n` images. */
  ghost predicate Tallied(accs: map<int, Acc>, order: seq<int>, n: nat)
  {
    forall m :: 0 <= m < |order| ==> order[m] in accs && TalliedAcc(accs[order[m]], n)
  }

  /** Appending a record extends a tally for `n` images to one for `n + 1`, with the
      record as the entry for image `n` and the entries for earlier images kept. */
  lemma AppendExtendsTally(acc: Acc, rec: Record, n: nat)
    requires TalliedAcc(acc, n)
    ensures TalliedAcc(Append(acc, rec), n + 1)
    ensures Append(acc, rec).predicted[n] == rec.prediction && Append(acc, rec).times[n] == rec.time
    ensures forall t :: 0 <= t < n ==>
              Append(acc, rec).predicted[t] == acc.predicted[t] && Append(acc, rec).times[t] == acc.times[t]
  {
    var r := Append(acc, rec);
    assert forall t :: 0 <= t < n ==> r.predicted[t] == r.predicted[..n][t] && r.times[t] == r.times[..n][t];
  }

  /** Variant `j`'s entries for image `t` are the prediction and time of the iteration
      for that image and variant, which did not halt the run. */
  ghost predicate FiledAt(iteration: (nat, string, int) -> Result<Record, Halt>, images: seq<string>,
                          accs: map<int, Acc>, j: int, t: nat)
  {
    && t < |images| && j in accs && t < |accs[j].predicted| && t < |accs[j].times|
    && iteration(t, images[t], j).Success?
    && accs[j].predicted[t] == iteration(t, images[t], j).value.prediction
    && accs[j].times[t] == iteration(t, images[t], j).value.time
  }

  /** Every variant of the order has its entries for the first `n` images filed. */
  ghost predicate Filed(iteration: (nat, string, int) -> Result<Record, Halt>, images: seq<string>,
                        accs: map<int, Acc>, order: seq<int>, n: nat)
  {
    forall m, t :: 0 <= m < |order| && 0 <= t < n ==> FiledAt(iteration, images, accs, order[m], t)
  }

  /** How many of variant `j`'s iterations on the first `n` images produced a record of
      kind `kind`. */
  ghost function CountKind(iteration: (nat, string, int) -> Result<Record, Halt>, images: seq<string>, j: int, n: nat,
                           kind: RecordKind): nat
    requires n <= |images|
  {
    if n == 0 then 0
    else
      CountKind(iteration, images, j, n - 1, kind)
      + (if iteration(n - 1, images[n - 1], j).Success? && iteration(n - 1, images[n - 1], j).value.kind == kind
         then 1 else 0)
  }

  /** Every variant's failed_parse and timeouts count its parse failures and its
      timeouts over the first `n` images. */
  ghost predicate Counted(iteration: (nat, string, int) -> Result<Record, Halt>, images: seq<string>,
                          accs: map<int, Acc>, order: seq<int>, n: nat)
    requires n <= |images|
  {
    forall m :: 0 <= m < |order| ==>
      && order[m] in accs
      && accs[order[m]].failedParse == CountKind(iteration, images, order[m], n, ParseFailure)
      && accs[order[m]].timeouts == CountKind(iteration, images, order[m], n, TimeoutFailure)
  }

  /** Some iteration on an image of `images[from..]` halts the run. */
  ghost predicate Halts(iteration: (nat, string, int) -> Result<Record, Halt>, images: seq<string>, order: seq<int>, from: nat)
  {
    exists t, m :: from <= t < |images| && 0 <= m < |order| && iteration(t, images[t], order[m]).Failure?
  }

  /** Some iteration on an image of `images[from..]` halts the run with error `e`. */
  ghost predicate HaltsWith(iteration: (nat, string, int) -> Result<Record, Halt>, images: seq<string>, order: seq<int>, from: nat,
                            e: Halt)
  {
    exists t, m :: from <= t < |images| && 0 <= m < |order| && iteration(t, images[t], order[m]) == Failure(e)
  }

  // ---------------------------------------------------------------------------
  // The run loop
  // ---------------------------------------------------------------------------

  /** The variants `order[k..]` of one image, where `attempt(j)` is the iteration for
      variant `j`: each variant gets exactly one record appended to its own
      accumulators and every other variant's are left alone; the first halting iteration
      halts the run. */
  function RunVariants(attempt: int -> Result<Record, Halt>, order: seq<int>,
                       k: nat, accs: map<int, Acc>): (r: Result<map<int, Acc>, Halt>)
    requires IsVariantOrder(order) && k <= |order|
    requires forall m :: 0 <= m < |order| ==> order[m] in accs
    ensures r.Failure? <==> exists m :: k <= m < |order| && attempt(order[m]).Failure?
    ensures r.Failure? ==> exists m :: k <= m < |order| && attempt(order[m]) == Failure(r.error)
    ensures r.Success? ==> r.value.Keys == accs.Keys
    ensures r.Success? ==> forall m :: 0 <= m < k ==> r.value[order[m]] == accs[order[m]]
    ensures r.Success? ==> forall m :: k <= m < |order| ==>
              r.value[order[m]] == Append(accs[order[m]], attempt(order[m]).value)
    decreases |order| - k
  {
    if k == |order| then Success(accs)
    else
      var j := order[k];
      var rec :- attempt(j);
      var next := accs[j := Append(accs[j], rec)];
      assert forall m :: k < m < |order| ==> order[m] != j;
      assert forall m :: k < m < |order| ==> next[order[m]] == accs[order[m]];
      RunVariants(attempt, order, k + 1, next)
  }

  /** The iteration for image number `i` at `path` and variant `j`. */
  function Iteration(env: Env, demos: Demos): (nat, string, int) -> Result<Record, Halt>
    requires ValidDemos(demos)
  {
    (i: nat, path: string, j: int) => RunAttempt(env, demos, i, path, j)
  }

  /** Image-loop state: true_labels and the per-variant accumulators. */
  datatype RunState = RunState(trueLabels: seq<seq<string>>, accs: map<int, Acc>)

  /** The images `images[idx..]`, each with every variant in turn, where
      `iteration(i, path, j)` is the iteration for image `i` and variant `j`. The loop
      halts exactly when one of these iterations halts, and then with the error of such
      an iteration; parse failures and timeouts do not halt it. Otherwise the ground
      truth of every image is appended to true_labels, every variant gains exactly one
      entry per image, which is the prediction and time of that image's iteration for
      that variant, the entries for `images[..idx]` are kept, and failed_parse and
      timeouts count the parse failures and timeouts among the variant's records. */
  function RunImages(iteration: (nat, string, int) -> Result<Record, Halt>, truthOf: string -> seq<string>,
                     images: seq<string>, order: seq<int>, idx: nat, st: RunState): (r: Result<RunState, Halt>)
    requires IsVariantOrder(order) && idx <= |images|
    requires Kept(iteration, truthOf, images, order, st, idx)
    ensures r.Failure? <==> Halts(iteration, images, order, idx)
    ensures r.Failure? ==> HaltsWith(iteration, images, order, idx, r.error)
    ensures r.Success? ==> r.value.accs.Keys == st.accs.Keys
    ensures r.Success? ==> Kept(iteration, truthOf, images, order, r.value, |images|)
    decreases |images| - idx
  {
    if idx == |images| then Success(st)
    else
      var next :- ImagePass(iteration, truthOf, images, order, idx, st);
      RunImages(iteration, truthOf, images, order, idx + 1, next)
  }

  /** One pass of the image loop: image `idx` with every variant in turn, then its
      ground truth appended to true_labels. It halts with the error of one of image
      `idx`'s iterations; otherwise none of them halted, and the state after `idx`
      images becomes the state after `idx + 1`, with the same variants. */
  function ImagePass(iteration: (nat, string, int) -> Result<Record, Halt>, truthOf: string -> seq<string>,
                     images: seq<string>, order: seq<int>, idx: nat, st: RunState): (r: Result<RunState, Halt>)
    requires IsVariantOrder(order) && idx < |images|
    requires Kept(iteration, truthOf, images, order, st, idx)
    ensures r.Failure? ==> HaltsWith(iteration, images, order, idx, r.error)
    ensures r.Success? ==> (Halts(iteration, images, order, idx) <==> Halts(iteration, images, order, idx + 1))
    ensures r.Success? ==> r.value.accs.Keys == st.accs.Keys
    ensures r.Success? ==> Kept(iteration, truthOf, images, order, r.value, idx + 1)
  {
    var path := images[idx];
    var attempt := j => iteration(idx, path, j);
    RunVariantsHalts(iteration, images, order, idx, attempt, st.accs);
    ImageStep(iteration, truthOf, images, order, idx, attempt, st);
    var accs :- RunVariants(attempt, order, 0, st.accs);
    Success(RunState(st.trueLabels + [truthOf(path)], accs))
  }

  /** The image-loop state after `n` images: true_labels holds their ground truth in
      order, and every variant has one filed entry per image and counts its parse
      failures and timeouts among them. */
  ghost predicate Kept(iteration: (nat, string, int) -> Result<Record, Halt>, truthOf: string -> seq<string>,
                       images: seq<string>, order: seq<int>, st: RunState, n: nat)
    requires n <= |images|
  {
    && |st.trueLabels| == n
    && (forall t :: 0 <= t < n ==> st.trueLabels[t] == truthOf(images[t]))
    && Tallied(st.accs, order, n)
    && Filed(iteration, images, st.accs, order, n)
    && Counted(iteration, images, st.accs, order, n)
  }

  /** One image's pass over all variants, when it does not halt, turns the state after
      `idx` images into the state after `idx + 1`. */
  lemma ImageStep(iteration: (nat, string, int) -> Result<Record, Halt>, truthOf: string -> seq<string>,
                  images: seq<string>, order: seq<int>, idx: nat, attempt: int -> Result<Record, Halt>,
                  st: RunState)
    requires IsVariantOrder(order) && idx < |images|
    requires forall j :: attempt(j) == iteration(idx, images[idx], j)
    requires Kept(iteration, truthOf, images, order, st, idx)
    ensures var r := RunVariants(attempt, order, 0, st.accs);
            r.Success? ==> Kept(iteration, truthOf, images, order, RunState(st.trueLabels + [truthOf(images[idx])], r.value),
                                idx + 1)
  {
    var r := RunVariants(attempt, order, 0, st.accs);
    if r.Success? {
      RunVariantsTallies(attempt, order, st.accs, idx);
      RunVariantsFiles(iteration, images, order, idx, attempt, st.accs);
      RunVariantsCounts(iteration, images, order, idx, attempt, st.accs);
      var next := st.trueLabels + [truthOf(images[idx])];
      assert forall t :: 0 <= t < idx + 1 ==> next[t] == truthOf(images[t]);
    }
  }

  /** One image's pass over all variants turns a tally for `n` images into a tally for
      `n + 1`. */
  lemma RunVariantsTallies(attempt: int -> Result<Record, Halt>, order: seq<int>,
                           accs: map<int, Acc>, n: nat)
    requires IsVariantOrder(order)
    requires Tallied(accs, order, n)
    ensures var r := RunVariants(attempt, order, 0, accs);
            r.Success? ==> Tallied(r.value, order, n + 1)
  {
    var r := RunVariants(attempt, order, 0, accs);
    if r.Success? {
      forall m | 0 <= m < |order|
        ensures order[m] in r.value && TalliedAcc(r.value[order[m]], n + 1)
      {
        var rec := attempt(order[m]);
        assert rec.Success?;
        AppendExtendsTally(accs[order[m]], rec.value, n);
      }
    }
  }

  /** One image's pass over all variants files that image's records behind the records
      of the images before it. */
  lemma RunVariantsFiles(iteration: (nat, string, int) -> Result<Record, Halt>, images: seq<string>,
                         order: seq<int>, idx: nat, attempt: int -> Result<Record, Halt>, accs: map<int, Acc>)
    requires IsVariantOrder(order) && idx < |images|
    requires forall j :: attempt(j) == iteration(idx, images[idx], j)
    requires Tallied(accs, order, idx) && Filed(iteration, images, accs, order, idx)
    ensures var r := RunVariants(attempt, order, 0, accs);
            r.Success? ==> Filed(iteration, images, r.value, order, idx + 1)
  {
    var r := RunVariants(attempt, order, 0, accs);
    if r.Success? {
      forall m, t | 0 <= m < |order| && 0 <= t < idx + 1
        ensures FiledAt(iteration, images, r.value, order[m], t)
      {
        var j := order[m];
        assert attempt(j).Success?;
        AppendExtendsTally(accs[j], attempt(j).value, idx);
        if t < idx {
          assert FiledAt(iteration, images, accs, j, t);
        }
      }
    }
  }

  /** One image's pass over all variants adds that image's parse failures and timeouts
      to every variant's counters. */
  lemma RunVariantsCounts(iteration: (nat, string, int) -> Result<Record, Halt>, images: seq<string>,
                          order: seq<int>, idx: nat, attempt: int -> Result<Record, Halt>, accs: map<int, Acc>)
    requires IsVariantOrder(order) && idx < |images|
    requires forall j :: attempt(j) == iteration(idx, images[idx], j)
    requires Counted(iteration, images, accs, order, idx)
    ensures var r := RunVariants(attempt, order, 0, accs);
            r.Success? ==> Counted(iteration, images, r.value, order, idx + 1)
  {
    var r := RunVariants(attempt, order, 0, accs);
    if r.Success? {
      forall m | 0 <= m < |order|
        ensures order[m] in r.value
        ensures r.value[order[m]].failedParse == CountKind(iteration, images, order[m], idx + 1, ParseFailure)
        ensures r.value[order[m]].timeouts == CountKind(iteration, images, order[m], idx + 1, TimeoutFailure)
      {
        assert attempt(order[m]).Success?;
      }
    }
  }

  /** One image's pass halts exactly when an iteration on that image halts, and then
      with that iteration's error; when it passes, the loop from this image halts
      exactly when the loop from the next one does. */
  lemma RunVariantsHalts(iteration: (nat, string, int) -> Result<Record, Halt>, images: seq<string>,
                         order: seq<int>, idx: nat, attempt: int -> Result<Record, Halt>, accs: map<int, Acc>)
    requires IsVariantOrder(order) && idx < |images|
    requires forall j :: attempt(j) == iteration(idx, images[idx], j)
    requires forall m :: 0 <= m < |order| ==> order[m] in accs
    ensures var r := RunVariants(attempt, order, 0, accs);
            r.Failure? ==> Halts(iteration, images, order, idx) && HaltsWith(iteration, images, order, idx, r.error)
    ensures var r := RunVariants(attempt, order, 0, accs);
            r.Success? ==> (Halts(iteration, images, order, idx) <==> Halts(iteration, images, order, idx + 1))
    ensures forall e :: HaltsWith(iteration, images, order, idx + 1, e) ==> HaltsWith(iteration, images, order, idx, e)
  {
    var r := RunVariants(attempt, order, 0, accs);
    if r.Failure? {
      var m :| 0 <= m < |order| && attempt(order[m]) == Failure(r.error);
      assert iteration(idx, images[idx], order[m]) == Failure(r.error);
    } else if Halts(iteration, images, order, idx) {
      var t, m :| idx <= t < |images| && 0 <= m < |order| && iteration(t, images[t], order[m]).Failure?;
      assert attempt(order[m]).Success?;
      assert t != idx;
    }
    forall e | HaltsWith(iteration, images, order, idx + 1, e)
      ensures HaltsWith(iteration, images, order, idx, e)
    {
      var t, m :| idx + 1 <= t < |images| && 0 <= m < |order| && iteration(t, images[t], order[m]) == Failure(e);
    }
  }

  // ---------------------------------------------------------------------------
  // Evaluation
  // ---------------------------------------------------------------------------

  /** f1_score(true_labels[t], predicted_labels[j][t]) for one pair. */
  function ScorePair(truth: seq<string>, prediction: Literal): (r: Result<real, Halt>)
    ensures r.Failure? <==> prediction.LitOther? || (truth == [] && Elements(prediction) == Some({}))
    ensures r.Failure? ==> r.error == (if prediction.LitOther? then NotIterable else ZeroDivision)
    ensures r.Success? ==> 0.0 <= r.value <= 1.0
    ensures r.Success? ==> Success(r.value) == F1OfSets(SetOf(truth), Elements(prediction).value)
  {
    SetOfEmpty(truth);
    match Elements(prediction)
    case None => Failure(NotIterable)
    case Some(predicted) =>
      match F1OfSets(SetOf(truth), predicted)
      case Failure(_) => Failure(ZeroDivision)
      case Success(score) => Success(score)
  }

  /** The scores of one variant: `[f1_score(true_labels[t], preds[t]) for t in
      range(len(true_labels))]`, computed front to back, so that running out of
      predictions raises IndexError at the first missing one. */
  function ScoreVariant(trueLabels: seq<seq<string>>, preds: seq<Literal>): (r: Result<seq<real>, Halt>)
    ensures r.Success? <==> AllScore(trueLabels, preds)
    ensures r.Success? ==> |r.value| == |trueLabels|
    ensures r.Success? ==> forall t :: 0 <= t < |trueLabels| ==>
              r.value[t] == ScorePair(trueLabels[t], preds[t]).value && 0.0 <= r.value[t] <= 1.0
  {
    if trueLabels == [] then Success([])
    else if preds == [] then Failure(MissingPrediction)
    else
      var score :- ScorePair(trueLabels[0], preds[0]);
      ScoresStep(trueLabels, preds);
      var scores :- ScoreVariant(trueLabels[1..], preds[1..]);
      var all := [score] + scores;
      assert forall t :: 1 <= t < |trueLabels| ==> all[t] == scores[t - 1];
      Success(all)
  }

  /** Every image has a prediction that scores. */
  ghost predicate AllScore(trueLabels: seq<seq<string>>, preds: seq<Literal>)
  {
    |preds| >= |trueLabels| && forall t :: 0 <= t < |trueLabels| ==> ScorePair(trueLabels[t], preds[t]).Success?
  }

  /** `AllScore` and the pairs of two non-empty lists, split at the first pair. */
  lemma ScoresStep(trueLabels: seq<seq<string>>, preds: seq<Literal>)
    requires trueLabels != [] && preds != []
    ensures AllScore(trueLabels, preds) <==>
              ScorePair(trueLabels[0], preds[0]).Success? && AllScore(trueLabels[1..], preds[1..])
    ensures forall t :: 1 <= t < |trueLabels| && t < |preds| ==>
              trueLabels[t] == trueLabels[1..][t - 1] && preds[t] == preds[1..][t - 1]
  {
    if ScorePair(trueLabels[0], preds[0]).Success? && AllScore(trueLabels[1..], preds[1..]) {
      forall t | 0 <= t < |trueLabels| ensures ScorePair(trueLabels[t], preds[t]).Success? {
        if t > 0 {
          assert ScorePair(trueLabels[1..][t - 1], preds[1..][t - 1]).Success?;
        }
      }
    }
    if AllScore(trueLabels, preds) {
      forall t | 0 <= t < |trueLabels| - 1 ensures ScorePair(trueLabels[1..][t], preds[1..][t]).Success? {
        assert ScorePair(trueLabels[t + 1], preds[t + 1]).Success?;
      }
    }
  }

  /** A variant's scoring fails with IndexError only when it has fewer predictions than
      there are images, and otherwise only where f1_score raises: on a prediction that
      is not iterable, or on two empty collections. */
  lemma {:induction false} ScoreVariantErrors(trueLabels: seq<seq<string>>, preds: seq<Literal>)
    ensures ScoreVariant(trueLabels, preds).Failure? ==>
              || (ScoreVariant(trueLabels, preds).error.MissingPrediction? && |preds| < |trueLabels|)
              || ScoreVariant(trueLabels, preds).error.NotIterable?
              || ScoreVariant(trueLabels, preds).error.ZeroDivision?
  {
    if trueLabels != [] && preds != [] && ScorePair(trueLabels[0], preds[0]).Success? {
      ScoreVariantErrors(trueLabels[1..], preds[1..]);
    }
  }

  /** `evals`: the scores of the variants `order[k..]`, keyed by variant, where
      `score(j)` scores variant `j`; the first variant whose scoring raises ends it. */
  function Evaluate(score: int -> Result<seq<real>, Halt>, order: seq<int>, k: nat)
    : (r: Result<map<int, seq<real>>, Halt>)
    requires k <= |order|
    ensures r.Success? ==> forall j :: j in r.value ==> j in order
    ensures r.Success? ==> forall m :: k <= m < |order| ==>
              order[m] in r.value && Success(r.value[order[m]]) == score(order[m])
    ensures r.Failure? <==> exists m :: k <= m < |order| && score(order[m]).Failure?
    ensures r.Failure? ==> exists m :: k <= m < |order| && score(order[m]) == Failure(r.error)
    decreases |order| - k
  {
    if k == |order| then Success(map[])
    else
      var j := order[k];
      var own :- score(j);
      var rest :- Evaluate(score, order, k + 1);
      assert j in order;
      Success(rest[j := own])
  }

  // ---------------------------------------------------------------------------
  // The whole run
  // ---------------------------------------------------------------------------

  /** `[image_paths.pop(0) for _ in range(n)]`: the demonstrations and what remains. */
  function SplitDemos(paths: seq<string>, n: nat): (r: Result<(seq<string>, seq<string>), Halt>)
    ensures r.Failure? <==> |paths| < n
    ensures r.Failure? ==> r.error == TooFewImages
    ensures r.Success? ==> r.value.0 == paths[..n] && r.value.1 == paths[n..]
    decreases n
  {
    if n == 0 then Success(([], paths))
    else if paths == [] then Failure(TooFewImages)
    else
      var split :- SplitDemos(paths[1..], n - 1);
      assert [paths[0]] + paths[1..][..n - 1] == paths[..n];
      assert paths[1..][n - 1..] == paths[n..];
      Success(([paths[0]] + split.0, split.1))
  }

  /** With distinct paths (a directory listing), no demonstration image is evaluated. */
  lemma {:induction false} DemosAreNotEvaluated(paths: seq<string>, n: nat)
    requires forall a, b :: 0 <= a < b < |paths| ==> paths[a] != paths[b]
    requires n <= |paths|
    ensures var split := SplitDemos(paths, n).value;
            forall p :: p in split.0 ==> p !in split.1
  {
    var split := SplitDemos(paths, n).value;
    forall p | p in split.0 ensures p !in split.1 {
      var a :| 0 <= a < |split.0| && split.0[a] == p;
      assert paths[a] == p;
      forall b | 0 <= b < |split.1| ensures split.1[b] != p {
        assert split.1[b] == paths[n + b];
      }
    }
  }

  /** The results of a complete run. */
  datatype Report = Report(trueLabels: seq<seq<string>>, accs: map<int, Acc>, scores: map<int, seq<real>>)

  /** Every variant of the order has one prediction, one time and one score per image
      of the report, and each score is f1_score of the image's ground truth and the
      variant's prediction for it. */
  ghost predicate Scored(report: Report, order: seq<int>)
  {
    forall m :: 0 <= m < |order| ==>
      && order[m] in report.accs && order[m] in report.scores
      && TalliedAcc(report.accs[order[m]], |report.trueLabels|)
      && |report.scores[order[m]]| == |report.trueLabels|
      && forall t :: 0 <= t < |report.trueLabels| ==>
           && 0.0 <= report.scores[order[m]][t] <= 1.0
           && Success(report.scores[order[m]][t]) == ScorePair(report.trueLabels[t], report.accs[order[m]].predicted[t])
  }

  /** How the F1 table scores variant `j` from the state the image loop leaves. The
      inner comprehension looks `predicted_labels[j]` up once per image, so a variant
      without an accumulator raises KeyError unless there are no images at all. */
  function Scorer(st: RunState): (score: int -> Result<seq<real>, Halt>)
    ensures forall j :: score(j).Success? <==>
              st.trueLabels == [] || (j in st.accs && AllScore(st.trueLabels, st.accs[j].predicted))
    ensures forall j :: score(j).Success? ==> |score(j).value| == |st.trueLabels|
    ensures forall j :: score(j).Success? && j in st.accs ==>
              && |st.accs[j].predicted| >= |st.trueLabels|
              && forall t :: 0 <= t < |st.trueLabels| ==>
                Success(score(j).value[t]) == ScorePair(st.trueLabels[t], st.accs[j].predicted[t])
    ensures forall j :: score(j) == Failure(UnknownVariant) <==> j !in st.accs && st.trueLabels != []
    ensures forall j :: score(j) == Failure(MissingPrediction) ==>
              j in st.accs && |st.accs[j].predicted| < |st.trueLabels|
    ensures forall j :: j in st.accs && |st.accs[j].predicted| >= |st.trueLabels| && score(j).Failure? ==>
              score(j).error.NotIterable? || score(j).error.ZeroDivision?
  {
    AccumulatorErrors(st);
    j =>
      if j in st.accs then ScoreVariant(st.trueLabels, st.accs[j].predicted)
      else if st.trueLabels == [] then Success([])
      else Failure(UnknownVariant)
  }

  /** `ScoreVariantErrors` for every accumulator of the state. */
  lemma AccumulatorErrors(st: RunState)
    ensures forall j :: j in st.accs && ScoreVariant(st.trueLabels, st.accs[j].predicted).Failure? ==>
              || (ScoreVariant(st.trueLabels, st.accs[j].predicted).error.MissingPrediction?
                  && |st.accs[j].predicted| < |st.trueLabels|)
              || ScoreVariant(st.trueLabels, st.accs[j].predicted).error.NotIterable?
              || ScoreVariant(st.trueLabels, st.accs[j].predicted).error.ZeroDivision?
  {
    forall j | j in st.accs
      ensures ScoreVariant(st.trueLabels, st.accs[j].predicted).Failure? ==>
                || (ScoreVariant(st.trueLabels, st.accs[j].predicted).error.MissingPrediction?
                    && |st.accs[j].predicted| < |st.trueLabels|)
                || ScoreVariant(st.trueLabels, st.accs[j].predicted).error.NotIterable?
                || ScoreVariant(st.trueLabels, st.accs[j].predicted).error.ZeroDivision?
    {
      ScoreVariantErrors(st.trueLabels, st.accs[j].predicted);
    }
  }

  /** The indexing in the F1 table is safe after a tallied run: every variant has an
      accumulator with a prediction for every image, so scoring fails only where
      f1_score itself raises. */
  lemma TalliedRunIndexesSafely(st: RunState, order: seq<int>)
    requires Tallied(st.accs, order, |st.trueLabels|)
    ensures forall m :: 0 <= m < |order| ==>
              Scorer(st)(order[m]) == ScoreVariant(st.trueLabels, st.accs[order[m]].predicted)
    ensures forall m :: 0 <= m < |order| && Scorer(st)(order[m]).Failure? ==>
              Scorer(st)(order[m]).error.NotIterable? || Scorer(st)(order[m]).error.ZeroDivision?
  {
    forall m | 0 <= m < |order|
      ensures |st.accs[order[m]].predicted| >= |st.trueLabels|
    {
      assert TalliedAcc(st.accs[order[m]], |st.trueLabels|);
    }
    forall m | 0 <= m < |order|
      ensures Scorer(st)(order[m]).Failure? ==>
                Scorer(st)(order[m]).error.NotIterable? || Scorer(st)(order[m]).error.ZeroDivision?
    {
      assert TalliedAcc(st.accs[order[m]], |st.trueLabels|);
      ScoreVariantErrors(st.trueLabels, st.accs[order[m]].predicted);
    }
  }

  /** Some iteration's recorded prediction cannot be scored against the ground truth
      of its image. */
  ghost predicate ScoreFails(iteration: (nat, string, int) -> Result<Record, Halt>, truthOf: string -> seq<string>,
                             images: seq<string>, order: seq<int>)
  {
    exists t, m :: 0 <= t < |images| && 0 <= m < |order|
      && iteration(t, images[t], order[m]).Success?
      && ScorePair(truthOf(images[t]), iteration(t, images[t], order[m]).value.prediction).Failure?
  }

  /** After a completed image loop, the F1 table fails exactly when some recorded
      prediction cannot be scored against its image's ground truth, and then with
      f1_score's own error. */
  lemma EvaluationFails(iteration: (nat, string, int) -> Result<Record, Halt>, truthOf: string -> seq<string>,
                        images: seq<string>, order: seq<int>, st: RunState)
    requires |st.trueLabels| == |images| && Tallied(st.accs, order, |images|)
    requires forall t :: 0 <= t < |images| ==> st.trueLabels[t] == truthOf(images[t])
    requires Filed(iteration, images, st.accs, order, |images|)
    ensures Evaluate(Scorer(st), order, 0).Failure? <==> ScoreFails(iteration, truthOf, images, order)
    ensures Evaluate(Scorer(st), order, 0).Failure? ==>
              Evaluate(Scorer(st), order, 0).error.NotIterable? || Evaluate(Scorer(st), order, 0).error.ZeroDivision?
  {
    TalliedRunIndexesSafely(st, order);
    var ev := Evaluate(Scorer(st), order, 0);
    if ev.Failure? {
      var m :| 0 <= m < |order| && Scorer(st)(order[m]).Failure?;
      var preds := st.accs[order[m]].predicted;
      assert TalliedAcc(st.accs[order[m]], |images|);
      var t :| 0 <= t < |images| && ScorePair(st.trueLabels[t], preds[t]).Failure?;
      assert FiledAt(iteration, images, st.accs, order[m], t);
    }
    if ScoreFails(iteration, truthOf, images, order) {
      var t, m :| 0 <= t < |images| && 0 <= m < |order|
        && iteration(t, images[t], order[m]).Success?
        && ScorePair(truthOf(images[t]), iteration(t, images[t], order[m]).value.prediction).Failure?;
      assert FiledAt(iteration, images, st.accs, order[m], t);
      assert TalliedAcc(st.accs[order[m]], |images|);
      assert Scorer(st)(order[m]).Failure?;
    }
  }

  /** A completed run over `images`: true_labels holds their ground truth in order, and
      every variant has one prediction, one time and one score per image, where the
      prediction and time are those of the image's iteration for that variant, the
      score is f1_score of the image's ground truth and that prediction, and
      failed_parse and timeouts count the variant's parse failures and timeouts. */
  ghost predicate Completed(iteration: (nat, string, int) -> Result<Record, Halt>, truthOf: string -> seq<string>,
                            images: seq<string>, order: seq<int>, report: Report)
  {
    && |report.trueLabels| == |images|
    && (forall t :: 0 <= t < |images| ==> report.trueLabels[t] == truthOf(images[t]))
    && Scored(report, order)
    && Filed(iteration, images, report.accs, order, |images|)
    && Counted(iteration, images, report.accs, order, |images|)
  }

  /** The image loop over the evaluation images followed by the F1 table. It halts
      exactly when some iteration halts (with that error) or some recorded prediction
      cannot be scored against its image's ground truth (with f1_score's error), and
      the table itself never fails on a missing variant or prediction. Otherwise every
      variant ends with one prediction, one time and one score per image, the
      prediction and time are those of the image's iteration for that variant, the
      score is f1_score of the image's ground truth and that prediction, and the
      counters count the parse failures and timeouts. */
  function RunOnImages(iteration: (nat, string, int) -> Result<Record, Halt>, truthOf: string -> seq<string>,
                       images: seq<string>, order: seq<int>): (r: Result<Report, Halt>)
    requires IsVariantOrder(order)
    ensures r.Success? ==> Completed(iteration, truthOf, images, order, r.value)
    ensures r.Success? ==> r.value.accs.Keys == (set j | j in order) && r.value.scores.Keys == (set j | j in order)
    ensures r.Failure? <==> Halts(iteration, images, order, 0) || ScoreFails(iteration, truthOf, images, order)
    ensures r.Failure? ==>
              if Halts(iteration, images, order, 0) then HaltsWith(iteration, images, order, 0, r.error)
              else r.error.NotIterable? || r.error.ZeroDivision?
    ensures r.Failure? && r.error.UnknownVariant? ==> ImageLoop(iteration, truthOf, images, order).Failure?
    ensures r.Failure? && r.error.MissingPrediction? ==> ImageLoop(iteration, truthOf, images, order).Failure?
  {
    var st :- ImageLoop(iteration, truthOf, images, order);
    TalliedRunIndexesSafely(st, order);
    EvaluationFails(iteration, truthOf, images, order, st);
    var scores :- Evaluate(Scorer(st), order, 0);
    Success(Report(st.trueLabels, st.accs, scores))
  }

  /** The image loop from empty accumulators for every variant. It halts exactly when
      some iteration halts, with the error of such an iteration; otherwise each
      variant's entries are the records of its iterations, image by image, and its
      counters count its parse failures and timeouts. */
  function ImageLoop(iteration: (nat, string, int) -> Result<Record, Halt>, truthOf: string -> seq<string>,
                     images: seq<string>, order: seq<int>): (r: Result<RunState, Halt>)
    requires IsVariantOrder(order)
    ensures r.Success? ==> |r.value.trueLabels| == |images| && Tallied(r.value.accs, order, |images|)
    ensures r.Success? ==> forall t :: 0 <= t < |images| ==> r.value.trueLabels[t] == truthOf(images[t])
    ensures r.Success? ==> Filed(iteration, images, r.value.accs, order, |images|)
    ensures r.Success? ==> Counted(iteration, images, r.value.accs, order, |images|)
    ensures r.Success? ==> r.value.accs.Keys == (set j | j in order)
    ensures r.Failure? <==> Halts(iteration, images, order, 0)
    ensures r.Failure? ==> HaltsWith(iteration, images, order, 0, r.error)
  {
    var accs0 := map j | j in order :: EmptyAcc;
    assert Kept(iteration, truthOf, images, order, RunState([], accs0), 0);
    RunImages(iteration, truthOf, images, order, 0, RunState([], accs0))
  }

  /** The demonstrations: the first `NDemos` shuffled paths and their answers. */
  function DemosOf(env: Env, shuffled: seq<string>): (demos: Demos)
    requires |shuffled| >= NDemos
    ensures ValidDemos(demos) && demos.paths == shuffled[..NDemos]
    ensures demos.answers == [env.answerOf(shuffled[0]), env.answerOf(shuffled[1])]
    ensures forall d :: 0 <= d < NDemos ==> demos.answers[d] == env.answerOf(demos.paths[d])
  {
    Demos(shuffled[..NDemos], seq(NDemos, d requires 0 <= d < NDemos => env.answerOf(shuffled[d])))
  }

  /** The demonstration split followed by the image loop and the F1 table, for any
      iteration function: the run halts exactly when there are too few images, when an
      iteration on an evaluated image halts, or when a recorded prediction cannot be
      scored; otherwise the evaluated images are exactly the list after its first
      `NDemos` entries, with every entry, counter and score as the loop and the table
      leave them. */
  function RunWith(iteration: (nat, string, int) -> Result<Record, Halt>, truthOf: string -> seq<string>,
                   shuffled: seq<string>, order: seq<int>): (r: Result<Report, Halt>)
    requires IsVariantOrder(order)
    ensures r.Failure? <==>
              || |shuffled| < NDemos
              || Halts(iteration, shuffled[NDemos..], order, 0)
              || ScoreFails(iteration, truthOf, shuffled[NDemos..], order)
    ensures r.Failure? ==>
              if |shuffled| < NDemos then r.error == TooFewImages
              else if Halts(iteration, shuffled[NDemos..], order, 0)
              then HaltsWith(iteration, shuffled[NDemos..], order, 0, r.error)
              else r.error.NotIterable? || r.error.ZeroDivision?
    ensures r.Success? ==> Completed(iteration, truthOf, shuffled[NDemos..], order, r.value)
    ensures r.Success? ==> r.value.accs.Keys == (set j | j in order) && r.value.scores.Keys == (set j | j in order)
  {
    var split :- SplitDemos(shuffled, NDemos);
    RunOnImages(iteration, truthOf, split.1, order)
  }

  /** The whole script from the demo split to the F1 table, each iteration using the
      demonstrations split off first. It stops at the split with fewer than `NDemos`
      images. Otherwise it halts exactly when an iteration on an evaluated image halts
      (with that iteration's error) or a recorded prediction cannot be scored (with
      f1_score's error); parse failures and timeouts are recorded and counted. A
      completed run lists the ground truth of the evaluated images in order, files
      every iteration's prediction and time, counts every variant's parse failures and
      timeouts, and scores every prediction against its ground truth. */
  function Run(env: Env, shuffled: seq<string>, order: seq<int>): (r: Result<Report, Halt>)
    requires IsVariantOrder(order)
    ensures |shuffled| < NDemos ==> r == Failure(TooFewImages)
    ensures |shuffled| >= NDemos ==>
              (r.Failure? <==>
                || Halts(Iteration(env, DemosOf(env, shuffled)), shuffled[NDemos..], order, 0)
                || ScoreFails(Iteration(env, DemosOf(env, shuffled)), env.trueLabelsOf, shuffled[NDemos..], order))
    ensures |shuffled| >= NDemos && r.Failure? ==>
              if Halts(Iteration(env, DemosOf(env, shuffled)), shuffled[NDemos..], order, 0)
              then HaltsWith(Iteration(env, DemosOf(env, shuffled)), shuffled[NDemos..], order, 0, r.error)
              else r.error.NotIterable? || r.error.ZeroDivision?
    ensures r.Success? ==> Completed(Iteration(env, DemosOf(env, shuffled)), env.trueLabelsOf, shuffled[NDemos..], order,
                                    r.value)
    ensures r.Success? ==> r.value.accs.Keys == (set j | j in order) && r.value.scores.Keys == (set j | j in order)
  {
    if |shuffled| < NDemos then Failure(TooFewImages)
    else RunWith(Iteration(env, DemosOf(env, shuffled)), env.trueLabelsOf, shuffled, order)
  }

  /** Entries filed by the iterations of a run are the records of `RunAttempt` on each
      evaluated image, with the shuffled list's demonstrations. */
  lemma FiledRecordsAreRunAttempts(env: Env, shuffled: seq<string>, order: seq<int>, accs: map<int, Acc>)
    requires |shuffled| >= NDemos
    requires Filed(Iteration(env, DemosOf(env, shuffled)), shuffled[NDemos..], accs, order, |shuffled| - NDemos)
    ensures forall m, t :: 0 <= m < |order| && 0 <= t < |shuffled| - NDemos ==>
              RecordedAttempt(env, shuffled, accs, order[m], t)
  {
    var iteration := Iteration(env, DemosOf(env, shuffled));
    forall m, t | 0 <= m < |order| && 0 <= t < |shuffled| - NDemos
      ensures RecordedAttempt(env, shuffled, accs, order[m], t)
    {
      assert FiledAt(iteration, shuffled[NDemos..], accs, order[m], t);
      assert shuffled[NDemos..][t] == shuffled[NDemos + t];
    }
  }

  /** Variant `j`'s entries for evaluated image `t` are the prediction and time of
      `RunAttempt` on that image with the shuffled list's demonstrations. */
  ghost predicate RecordedAttempt(env: Env, shuffled: seq<string>, accs: map<int, Acc>, j: int, t: nat)
    requires NDemos + t < |shuffled|
  {
    && RunAttempt(env, DemosOf(env, shuffled), t, shuffled[NDemos + t], j).Success?
    && j in accs && t < |accs[j].predicted| && t < |accs[j].times|
    && accs[j].predicted[t] == RunAttempt(env, DemosOf(env, shuffled), t, shuffled[NDemos + t], j).value.prediction
    && accs[j].times[t] == RunAttempt(env, DemosOf(env, shuffled), t, shuffled[NDemos + t], j).value.time
  }

  /** For every evaluated image and variant of a completed run, the run recorded the
      prediction and time of `RunAttempt` on that image with the shuffled list's
      demonstrations, and that iteration did not halt the run. */
  lemma RunRecordsEveryAttempt(env: Env, shuffled: seq<string>, order: seq<int>)
    requires IsVariantOrder(order)
    ensures Run(env, shuffled, order).Success? ==>
              forall m, t :: 0 <= m < |order| && 0 <= t < |shuffled| - NDemos ==>
                RecordedAttempt(env, shuffled, Run(env, shuffled, order).value.accs, order[m], t)
  {
    if Run(env, shuffled, order).Success? {
      FiledRecordsAreRunAttempts(env, shuffled, order, Run(env, shuffled, order).value.accs);
    }
  }
}

=== FILE: inference_client.dfy ===
/** The client side of one model call: the messages are copied with their image
    references replaced by encodings, and the request is retried after ordinary failures
    but abandoned at the first timeout. The network is a function `server` from the
    payload and the attempt number to that attempt's outcome; reading and base64-encoding
    an image file is the opaque function `encode`. */
module InferenceClient {
  import opened Wrappers
  import opened Conversation

  /** The outcome of one HTTP request: the reply's message content, a timeout
      (requests.Timeout), or any other request failure with its text (str(e)). */
  datatype Attempt = Answered(content: string) | TimedOut | RequestFailed(detail: string)

  /** The dict the call returns: {"message": …, "error": …}. */
  datatype ApiResponse = ApiResponse(message: Option<string>, error: Option<string>)

  /** What a call returns (`None` when the loop never runs), how many requests it made
      and how many times it slept between them. */
  datatype CallOutcome = CallOutcome(response: Option<ApiResponse>, attempts: nat, sleeps: nat)

  /** The error text returned for a timed-out request. */
  const TimeoutError := "Timeout"

  // ---------------------------------------------------------------------------
  // Message preprocessing
  // ---------------------------------------------------------------------------

  /** The references Python iterates over in `m['images']`: the list's items, or the
      one-character strings of a text. */
  function ImageRefs(f: Field): seq<string>
  {
    match f
    case Paths(items) => items
    case Text(text) => seq(|text|, i requires 0 <= i < |text| => [text[i]])
  }

  /** The encodings of a list of image references, in order. */
  function EncodeAll(refs: seq<string>, encode: string -> string): (encoded: seq<string>)
    ensures |encoded| == |refs|
    ensures forall i :: 0 <= i < |refs| ==> encoded[i] == encode(refs[i])
  {
    if refs == [] then []
    else [encode(refs[0])] + EncodeAll(refs[1..], encode)
  }

  /** The shallow copy of one message with its images encoded; every other key keeps
      its value. */
  function EncodeImages(m: Message, encode: string -> string): (m': Message)
    ensures m'.Keys == m.Keys
    ensures forall k :: k in m && k != "images" ==> m'[k] == m[k]
    ensures "images" in m ==>
              && m'["images"].Paths?
              && |m'["images"].items| == |ImageRefs(m["images"])|
              && forall i :: 0 <= i < |ImageRefs(m["images"])| ==>
                   m'["images"].items[i] == encode(ImageRefs(m["images"])[i])
  {
    if "images" in m then m["images" := Paths(EncodeAll(ImageRefs(m["images"]), encode))]
    else m
  }

  /** The payload's message list: the same number of messages, in the same order, each
      the encoded copy of its original. */
  function Prepare(messages: seq<Message>, encode: string -> string): (out: seq<Message>)
    ensures |out| == |messages|
    ensures forall i :: 0 <= i < |messages| ==> out[i].Keys == messages[i].Keys
    ensures forall i, k :: 0 <= i < |messages| && k in messages[i] && k != "images" ==>
              out[i][k] == messages[i][k]
    ensures forall i :: 0 <= i < |messages| && "images" in messages[i] ==>
              && out[i]["images"].Paths?
              && |out[i]["images"].items| == |ImageRefs(messages[i]["images"])|
              && forall t :: 0 <= t < |ImageRefs(messages[i]["images"])| ==>
                   out[i]["images"].items[t] == encode(ImageRefs(messages[i]["images"])[t])
  {
    if messages == [] then []
    else [EncodeImages(messages[0], encode)] + Prepare(messages[1..], encode)
  }

  // ---------------------------------------------------------------------------
  // Retry policy
  // ---------------------------------------------------------------------------

  /** The dict returned by the attempt that ends the loop. */
  function Settle(a: Attempt): ApiResponse
  {
    match a
    case Answered(content) => ApiResponse(Some(content), None)
    case TimedOut => ApiResponse(None, Some(TimeoutError))
    case RequestFailed(detail) => ApiResponse(None, Some(detail))
  }

  /** The retry policy: with no retries allowed nothing is sent and nothing is returned;
      otherwise every request but the last failed in an ordinary way, one sleep separates
      consecutive requests, the last request decides the result, and an ordinary failure
      is the last one only when the budget is spent. */
  ghost predicate FollowsRetryPolicy(server: (seq<Message>, nat) -> Attempt, payload: seq<Message>,
                                     maxRetries: int, r: CallOutcome)
  {
    if maxRetries <= 0 then
      r == CallOutcome(None, 0, 0)
    else
      && 1 <= r.attempts <= maxRetries
      && r.sleeps == r.attempts - 1
      && (forall k :: 0 <= k < r.attempts - 1 ==> server(payload, k).RequestFailed?)
      && r.response == Some(Settle(server(payload, r.attempts - 1)))
      && (server(payload, r.attempts - 1).RequestFailed? ==> r.attempts == maxRetries)
  }

  /** The loop from the request numbered `retries` on. */
  function RetryFrom(server: (seq<Message>, nat) -> Attempt, payload: seq<Message>,
                     maxRetries: int, retries: nat): (r: CallOutcome)
    requires retries < maxRetries
    ensures retries < r.attempts <= maxRetries
    ensures r.sleeps == r.attempts - 1 - retries
    ensures forall k :: retries <= k < r.attempts - 1 ==> server(payload, k).RequestFailed?
    ensures r.response == Some(Settle(server(payload, r.attempts - 1)))
    ensures server(payload, r.attempts - 1).RequestFailed? ==> r.attempts == maxRetries
    decreases maxRetries - retries
  {
    match server(payload, retries)
    case Answered(content) =>
      CallOutcome(Some(ApiResponse(Some(content), None)), retries + 1, 0)
    case TimedOut =>
      CallOutcome(Some(ApiResponse(None, Some(TimeoutError))), retries + 1, 0)
    case RequestFailed(detail) =>
      if retries + 1 < maxRetries then
        var rest := RetryFrom(server, payload, maxRetries, retries + 1);
        rest.(sleeps := rest.sleeps + 1)
      else
        CallOutcome(Some(ApiResponse(None, Some(detail))), retries + 1, 0)
  }

  /** The request loop of `call_ollama_api` for an already prepared payload. */
  function CallApi(server: (seq<Message>, nat) -> Attempt, payload: seq<Message>,
                   maxRetries: int): (r: CallOutcome)
    ensures FollowsRetryPolicy(server, payload, maxRetries, r)
  {
    if maxRetries <= 0 then CallOutcome(None, 0, 0)
    else RetryFrom(server, payload, maxRetries, 0)
  }

  /** `call_ollama_api(messages, …, max_retries)`: prepare the payload, then run the
      request loop on it. */
  function CallOllamaApi(messages: seq<Message>, encode: string -> string,
                         server: (seq<Message>, nat) -> Attempt, maxRetries: int): (r: CallOutcome)
    ensures FollowsRetryPolicy(server, Prepare(messages, encode), maxRetries, r)
  {
    CallApi(server, Prepare(messages, encode), maxRetries)
  }

  /** The policy pins the call down completely: two outcomes that both follow it for
      the same server and payload are the same outcome. */
  lemma {:induction false} RetryPolicyIsDeterministic(server: (seq<Message>, nat) -> Attempt,
                                                      payload: seq<Message>, maxRetries: int,
                                                      r: CallOutcome, r': CallOutcome)
    requires FollowsRetryPolicy(server, payload, maxRetries, r)
    requires FollowsRetryPolicy(server, payload, maxRetries, r')
    ensures r == r'
  {
  }

  /** A success returns its content with no error, and no further request is made. */
  lemma AnswerEndsTheLoop(server: (seq<Message>, nat) -> Attempt, payload: seq<Message>,
                          maxRetries: int, k: nat, content: string)
    requires k < maxRetries
    requires forall i :: 0 <= i < k ==> server(payload, i).RequestFailed?
    requires server(payload, k) == Answered(content)
    ensures CallApi(server, payload, maxRetries)
              == CallOutcome(Some(ApiResponse(Some(content), None)), k + 1, k)
  {
  }

  /** The first timeout ends the call with error "Timeout", without a retry or a sleep
      after it, however many retries remain. */
  lemma TimeoutEndsTheLoop(server: (seq<Message>, nat) -> Attempt, payload: seq<Message>,
                           maxRetries: int, k: nat)
    requires k < maxRetries
    requires forall i :: 0 <= i < k ==> server(payload, i).RequestFailed?
    requires server(payload, k) == TimedOut
    ensures CallApi(server, payload, maxRetries)
              == CallOutcome(Some(ApiResponse(None, Some(TimeoutError))), k + 1, k)
  {
  }

  /** When every request fails in an ordinary way, exactly `maxRetries` requests are
      made with a sleep between consecutive ones, and the last failure's text is the
      error. */
  lemma ExhaustionReturnsLastError(server: (seq<Message>, nat) -> Attempt, payload: seq<Message>,
                                   maxRetries: int)
    requires 0 < maxRetries
    requires forall i :: 0 <= i < maxRetries ==> server(payload, i).RequestFailed?
    ensures var r := CallApi(server, payload, maxRetries);
            && r.attempts == maxRetries
            && r.sleeps == maxRetries - 1
            && r.response == Some(ApiResponse(None, Some(server(payload, maxRetries - 1).detail)))
  {
  }
}

=== FILE: py_literal.dfy ===
/** The Python values `ast.literal_eval` hands back to the harness, as far as the
    harness inspects them. The literal grammar itself is not modelled: a parse is an
    abstract `ParseOutcome`. */
module PyLiteral {
  import opened Wrappers

  datatype Literal =
    | LitList(items: seq<string>)          // a list, tuple or set literal of strings
    | LitStr(text: string)                 // a string literal
    | LitDict(fields: map<string, Literal>) // a dict literal with string keys
    | LitOther                             // numbers, booleans, None

  /** What `ast.literal_eval` does with a text: a value, or ValueError/SyntaxError. */
  datatype ParseOutcome = Parsed(value: Literal) | ParseError

  /** `set(xs)`: the distinct elements of a list. */
  function SetOf(xs: seq<string>): set<string>
  {
    set x | x in xs
  }

  /** An element is in a list's set exactly when it occurs in the list. */
  lemma SetOfMembership(xs: seq<string>)
    ensures forall x :: x in SetOf(xs) <==> x in xs
  {
  }

  /** A list has no elements exactly when its set has none. */
  lemma SetOfEmpty(xs: seq<string>)
    ensures SetOf(xs) == {} <==> xs == []
  {
    if xs != [] {
      assert xs[0] in SetOf(xs);
    }
  }

  /** The elements of `set(v)`: list items, dict keys, the one-character strings of a
      string; `None` where Python raises TypeError (the value is not iterable). */
  function Elements(v: Literal): (r: Option<set<string>>)
    ensures r.None? <==> v.LitOther?
    ensures v.LitList? ==> r == Some(SetOf(v.items))
    ensures v.LitDict? ==> r == Some(v.fields.Keys)
    ensures v.LitStr? ==> forall c :: c in r.value <==> |c| == 1 && c[0] in v.text
  {
    match v
    case LitList(items) => Some(SetOf(items))
    case LitStr(text) => CharacterSet(text); Some(set i | 0 <= i < |text| :: [text[i]])
    case LitDict(fields) => Some(fields.Keys)
    case LitOther => None
  }

  /** The one-character strings of `text` are exactly those whose character occurs in it. */
  lemma CharacterSet(text: string)
    ensures forall c :: c in (set i | 0 <= i < |text| :: [text[i]]) <==> |c| == 1 && c[0] in text
  {
    forall c | |c| == 1 && c[0] in text
      ensures c in (set i | 0 <= i < |text| :: [text[i]])
    {
      var i :| 0 <= i < |text| && text[i] == c[0];
      assert c == [text[i]];
    }
  }

  /** `v['labels']` succeeds exactly on a dict for which `'labels' in v` holds, that is,
      whose set of elements holds the key; a list or string holding the key as an
      element still raises. */
  lemma {:induction false} SubscriptNeedsKeyInSet(v: Literal, key: string)
    ensures Subscript(v, key).Some? <==> v.LitDict? && key in Elements(v).value
    ensures v.LitList? && key in v.items ==> Subscript(v, key).None?
  {
  }

  /** `v[key]` for a string key: the field of a dict that has it; `None` where Python
      raises (KeyError for a dict without the key, TypeError for any other value). */
  function Subscript(v: Literal, key: string): (r: Option<Literal>)
  {
    if v.LitDict? && key in v.fields then Some(v.fields[key]) else None
  }
}

=== FILE: vectorize.dfy ===
/** Label vectorisation of the dataset: every row's label list becomes a 0/1 vector
    over the ordered vocabulary of allowed labels. */
module Vectorize {

  /** The vector of one row: entry `i` flags whether `allowed[i]` is among the row's
      labels (`[1 if label in item else 0 for label in allowed_labels]`). */
  function Vector(allowed: seq<string>, item: seq<string>): (v: seq<int>)
    ensures |v| == |allowed|
    ensures forall i :: 0 <= i < |v| ==> v[i] == 0 || v[i] == 1
    ensures forall i :: 0 <= i < |v| ==> (v[i] == 1 <==> allowed[i] in item)
    decreases |allowed|
  {
    if allowed == [] then []
    else [if allowed[0] in item then 1 else 0] + Vector(allowed[1..], item)
  }

  /** `vectorize`: one vector per row, in row order, each one `Vector` of its row. */
  method VectorizeRows(allowed: seq<string>, rows: seq<seq<string>>) returns (vectors: seq<seq<int>>)
    ensures |vectors| == |rows|
    ensures forall r :: 0 <= r < |rows| ==> |vectors[r]| == |allowed|
    ensures forall r, i :: 0 <= r < |rows| && 0 <= i < |allowed| ==>
              (vectors[r][i] == 1 <==> allowed[i] in rows[r]) &&
              (vectors[r][i] == 0 <==> allowed[i] !in rows[r])
  {
    vectors := [];
    var k := 0;
    while k < |rows|
      invariant 0 <= k <= |rows|
      invariant |vectors| == k
      invariant forall r :: 0 <= r < k ==> vectors[r] == Vector(allowed, rows[r])
    {
      vectors := vectors + [Vector(allowed, rows[k])];
      k := k + 1;
    }
  }

  /** A row's vector sees only which vocabulary labels the row contains: two rows that
      agree on every allowed label get the same vector, whatever else they hold. */
  lemma {:induction false} VectorDependsOnlyOnVocabulary(allowed: seq<string>, item: seq<string>, item': seq<string>)
    requires forall l :: l in allowed ==> (l in item <==> l in item')
    ensures Vector(allowed, item) == Vector(allowed, item')
    decreases |allowed|
  {
    if allowed != [] {
      assert allowed[0] in allowed;
      VectorDependsOnlyOnVocabulary(allowed[1..], item, item');
    }
  }

  /** Labels outside the vocabulary have no effect on a row's vector. */
  lemma UnknownLabelIgnored(allowed: seq<string>, item: seq<string>, extra: string)
    requires extra !in allowed
    ensures Vector(allowed, item + [extra]) == Vector(allowed, item)
  {
    VectorDependsOnlyOnVocabulary(allowed, item + [extra], item);
  }

  /** Duplicates and ordering within a row's label list do not change its vector. */
  lemma SameLabelsSameVector(allowed: seq<string>, item: seq<string>, item': seq<string>)
    requires forall l :: l in item <==> l in item'
    ensures Vector(allowed, item) == Vector(allowed, item')
  {
    VectorDependsOnlyOnVocabulary(allowed, item, item');
  }
}

=== FILE: wrappers.dfy ===
/** Failure-carrying wrappers shared by every module of the model. */
module Wrappers {

  /** A value that may be absent: Python's `None` versus a present value. */
  datatype Option<+T> = None | Some(value: T)

  /** The outcome of a computation that either yields a value or raises an error.
      `var x :- r;` passes a raised error on to the caller unchanged. */
  datatype Result<+T, +E> = Success(value: T) | Failure(error: E)
  {
    predicate IsFailure() {
      Failure?
    }

    function PropagateFailure<U>(): Result<U, E>
      requires Failure?
    {
      Failure(error)
    }

    function Extract(): T
      requires Success?
    {
      value
    }
  }
}
